=== FILE: README.md ===
# Jour J event planner: a Dafny model of its data layer

Jour J is a browser application for planning one event, typically a wedding.

The organizer side keeps four record collections in the browser's `localStorage`: people, vendors, tasks and documents. It also keeps an event configuration. The organizer edits these with add, edit and delete forms.

Participants open the same store. They say who they are, once in the participant hook (`useTeamData`) and once in a team-selection context. They then see the tasks and documents assigned to them.

The model has these parts:

- **Storage.** `localStorage` is a class over a `map<string, Value>`. The load sequence both hooks run (`Restore`) stops at the first value that fails to parse.
- **Organizer repository.** `useAdminData` is a class whose write-through saves each change one field and one key.
- **Participant view engine.** `useTeamData` is a class with pure filters beside it. These are tasks and documents by assignment, the current user, and progress.
- **Form edits.** Each admin form applies one of three edits before saving: replace by id, append, or delete by id. The per-entity record builders decide which fields an edit carries over.
- **Identity state machines.** These are the team-selection context, the user selector and the team-access dialog.
- **Helpers.** Name resolution, the stable sort by start time, end-time arithmetic, document URLs, initials, and phone-number normalisation.

Each module models one source file, apart from four shared ones. `Wrappers` holds `Option` and `Result`. `Seqs` holds `filter`, `find`, replace-by-predicate and `join`, with their lemmas. `Edits` holds the collection edits every form uses. `TimeOfDay` holds the end-time arithmetic both planning views use.

## Model

| member | source | states |
|---|---|---|
| Storage.LocalStore.SetItem | src/hooks/useAdminData.ts:107 | `setItem` changes exactly one key, to the given value |
| Storage.LocalStore.RemoveItem | src/contexts/TeamSelectionContext.tsx:47-48 | `removeItem` deletes exactly one key |
| Storage.TextAt | src/hooks/useTeamData.ts:39-43 | a raw string comes back only from a key holding a non-empty string (`if (saved)`) |
| Storage.Restore | src/hooks/useTeamData.ts:17-34 | the load fails iff some key it reads holds a value of the wrong shape; every collection it assigns is exactly the stored value under that collection's key |
| Storage.RestoreAssigns | src/hooks/useAdminData.ts:84-98 | the setter of the i-th key runs iff that key is present and it and every earlier key parse; a failure keeps earlier assignments and skips later ones |
| Storage.RestoreReadable | src/hooks/useAdminData.ts:91-95 | on a readable store, the load assigns exactly the collections whose key is present, with the stored values, and does not fail |
| Storage.WriteKeepsReadable | src/hooks/useAdminData.ts:105-128 | writing a well-shaped value under a load key keeps the store readable |
| Storage.SaveRoundTrip | src/hooks/useAdminData.ts:91-127 | round trip: what each save writes under its key is what the next load assigns to that collection |
| Records.Document.OpenTarget | src/components/admin/DocumentManagement.tsx:282-286 | a local file opens under "/uploads/" + url; an external link opens as url verbatim |
| Admin.AdminData.constructor | src/hooks/useAdminData.ts:65-79 | before any load, the four collections are empty and the configuration is the default one: id "1", "Mon Événement", "Mariage", the two colours, "Europe/Paris", date = the clock |
| Admin.AdminData.LoadSaved | src/hooks/useAdminData.ts:82-102 | each collection and the configuration becomes the restored value when the load reached its key, and keeps its value otherwise; a failure is counted as logged and never propagated; storage is untouched |
| Admin.AdminData.SavePeople | src/hooks/useAdminData.ts:105-108 | people become the argument, "jour-j-people" stores it, every other field and key is unchanged |
| Admin.AdminData.SaveVendors | src/hooks/useAdminData.ts:110-113 | same for vendors and "jour-j-vendors" |
| Admin.AdminData.SaveTasks | src/hooks/useAdminData.ts:115-118 | same for tasks and "jour-j-tasks" |
| Admin.AdminData.SaveDocuments | src/hooks/useAdminData.ts:120-123 | same for documents and "jour-j-documents" |
| Admin.AdminData.SaveEventConfig | src/hooks/useAdminData.ts:125-128 | same for the configuration and "jour-j-event-config" |
| Admin.SaveTasksTwice | src/hooks/useAdminData.ts:115-118 | saving the same value twice leaves state and storage as saving it once: the tasks and the one key are set, every other collection, the configuration and the error count are unchanged |
| Admin.SaveThenRemount | src/hooks/useAdminData.ts:91-108 | after a save, a fresh mount of the hook over the same store loads the saved people, loads vendors, tasks, documents and the event configuration as they were stored before the save (the initial value where a key is absent), and logs no error |
| TeamView.UserTasks | src/hooks/useTeamData.ts:62-72 | with no selected user the list is empty; every listed task is in the collection and assigned to the viewer |
| TeamView.UserTasksExactly | src/hooks/useTeamData.ts:62-72 | a task is listed iff a viewer is selected and the assignment list of the viewer's kind contains them ("person" → `assignedTo`, anything else → `assignedVendors`) |
| TeamView.UserTasksInOrder | src/hooks/useTeamData.ts:65-71 | the listed tasks keep their original order (the filter distributes over concatenation) |
| TeamView.UserDocuments | src/hooks/useTeamData.ts:75-88 | with no selected user the list is empty; every listed document is in the collection and visible to the viewer |
| TeamView.SharedDocumentsListed | src/hooks/useTeamData.ts:79-80 | a "public" or "team" document is listed iff a viewer is selected, whatever its assignment lists say |
| TeamView.SpecificDocumentsListed | src/hooks/useTeamData.ts:82-86 | any other document is listed iff the viewer is in the list matching their kind |
| TeamView.UserDocumentsInOrder | src/hooks/useTeamData.ts:78-87 | the listed documents keep their original order |
| TeamView.CurrentUser | src/hooks/useTeamData.ts:91-99 | null iff no user is selected; otherwise a person (kind "person") or vendor (any other kind) carrying that id, or undefined iff no record carries it |
| TeamView.CurrentUserIsFirst | src/hooks/useTeamData.ts:95 | when several people share the id, the first one is returned |
| TeamView.Percent | src/hooks/useTeamData.ts:104-107 | 0 for no tasks; otherwise the nearest integer to 100·done/total with halves rounding up, hence within 0..100, and 100 when all are done |
| TeamView.ProgressOneOfFour | src/hooks/useTeamData.ts:107 | one completed task out of four gives 25 |
| TeamView.CompletedTasks | src/hooks/useTeamData.ts:106 | a task is kept iff it is in the input with status "completed", and there are as many as there are completed positions in the input |
| TeamView.UserProgress | src/hooks/useTeamData.ts:102-108 | 0 when the viewer has no tasks; otherwise 100 × completed / assigned rounded half up (stated by inequalities over the count of completed positions), hence within 0..100 and 100 when all are completed |
| TeamView.TeamData.constructor | src/hooks/useTeamData.ts:6-13 | empty collections, no configuration, loading, no selected user, kind "person" |
| TeamView.TeamData.RestoreIdentity | src/hooks/useTeamData.ts:38-44 | each identity field is restored only from a key holding a non-empty string, and keeps its value otherwise; nothing else changes |
| TeamView.TeamData.LoadData | src/hooks/useTeamData.ts:16-35 | each collection reached by the load is replaced by the stored value and the others are kept; `loading` ends false whether or not parsing failed; a failure is logged; identity and storage are untouched |
| TeamView.TeamData.SelectUser | src/hooks/useTeamData.ts:54-59 | both identity fields are set and the same values are written to "jour-j-selected-user" and "jour-j-user-type"; the collections are untouched |
| TeamView.SaveThenRefresh | src/hooks/useTeamData.ts:16-35 | an organizer save on the shared store is invisible to the participant snapshot until the next `loadData`, and visible after it |
| SelectionContext.TeamSelection.constructor | src/contexts/TeamSelectionContext.tsx:23-24 | both fields start as null |
| SelectionContext.TeamSelection.RestoreSaved | src/contexts/TeamSelectionContext.tsx:26-32 | each field is restored from its key when the key holds a non-empty string, and keeps its value otherwise |
| SelectionContext.TeamSelection.SetTeamType | src/contexts/TeamSelectionContext.tsx:34-37 | the type is set and stored under "jour-j-team-type"; the person id is unchanged |
| SelectionContext.TeamSelection.SetPersonId | src/contexts/TeamSelectionContext.tsx:39-42 | the id is set and stored under "jour-j-person-id"; the type is unchanged |
| SelectionContext.TeamSelection.ClearSelection | src/contexts/TeamSelectionContext.tsx:44-49 | both fields become null and exactly the two keys are removed |
| SelectionContext.UseTeamSelection | src/contexts/TeamSelectionContext.tsx:14-19 | the context is returned iff a provider encloses the caller; otherwise the provider error is raised |
| SelectionContext.ClearTwice | src/contexts/TeamSelectionContext.tsx:44-49 | clearing twice is clearing once |
| SelectionContext.SelectThenRemount | src/contexts/TeamSelectionContext.tsx:26-42 | a type and a non-empty id that were set are restored by a fresh provider over the same store |
| SelectionContext.ClearThenRemount | src/contexts/TeamSelectionContext.tsx:26-49 | after a clear, a fresh provider restores nothing |
| Seqs.Filter | src/hooks/useTeamData.ts:65 | `filter` keeps only elements of the input that satisfy the predicate, and is no longer than the input |
| Seqs.FilterMembership | src/hooks/useTeamData.ts:65 | an element is kept iff it is in the input and passes |
| Seqs.FilterAppend | src/hooks/useTeamData.ts:65 | filtering distributes over concatenation, so order is kept |
| Seqs.FilterCount | src/hooks/useTeamData.ts:106 | the filtered length is the number of positions whose element passes |
| Seqs.FilterSameLength | src/components/ui/PhoneNumberLink.tsx:14 | the length is kept iff every element passes |
| Seqs.Find | src/hooks/useTeamData.ts:95 | `find` returns an element of the input that passes, and nothing iff none does |
| Seqs.FindFirst | src/hooks/useTeamData.ts:95 | the element found is the first that passes |
| Seqs.ReplaceWhere | src/components/admin/PeopleManagement.tsx:53-55 | `map` with a replacement keeps the length, puts the new record where the predicate holds and leaves every other position unchanged |
| Edits.KeptOr | src/components/admin/PeopleManagement.tsx:44 | `editing?.field \|\| minted`: the edited record's field when non-empty, the minted value otherwise |
| Edits.SaveEdited | src/components/admin/PeopleManagement.tsx:53-59 | with an edited record, every element with its id becomes the new record and the others stay in place; without one, the new record is appended |
| Edits.EditOfMissingIsLost | src/components/admin/PeopleManagement.tsx:53-55 | saving an edit of a record no longer in the collection changes nothing |
| Edits.EditKeepsIds | src/components/admin/PeopleManagement.tsx:53-55 | an edit that keeps the id leaves the sequence of ids unchanged |
| Edits.EditIdempotent | src/components/admin/PeopleManagement.tsx:53-55 | saving the same edit twice is saving it once |
| Edits.RemoveId | src/components/admin/PeopleManagement.tsx:91-93 | deletion keeps only records of the collection whose id differs |
| Edits.RemoveIdExactly | src/components/admin/PeopleManagement.tsx:91-93 | a record survives deletion iff it was there and carries another id |
| Edits.RemoveAbsentId | src/components/admin/PeopleManagement.tsx:91-93 | deleting an id no record carries changes nothing |
| Edits.RemoveIdInOrder | src/components/admin/PeopleManagement.tsx:92 | the records kept stay in order |
| Edits.AddThenRemove | src/components/admin/PeopleManagement.tsx:57-93 | appending a record under a fresh id and deleting that id restores the collection |
| Edits.RemoveThenEdit | src/components/admin/PeopleManagement.tsx:53-93 | once an id is deleted, an edit of a record with that id is lost |
| Edits.Ids | src/components/team/UserSelector.tsx:79-115 | the ids of the collection, position by position |
| PeopleAdmin.PersonRecord | src/components/admin/PeopleManagement.tsx:43-51 | the id is kept from the edited person or minted "person-"+stamp; `confirmed` iff the switch value is "on"; every other field comes from the form |
| PeopleAdmin.VendorRecord | src/components/admin/PeopleManagement.tsx:67-76 | the same for vendors, with "vendor-" ids |
| PeopleAdmin.PersonRecordId | src/components/admin/PeopleManagement.tsx:44 | an edit keeps a non-empty id; a new person's id starts with "person-" |
| PeopleAdmin.EditPersonInPlace | src/components/admin/PeopleManagement.tsx:53-55 | editing keeps the length, puts the new record at every position holding the edited id, and leaves every other position unchanged |
| PeopleAdmin.PeopleManagement.AddPerson | src/components/admin/PeopleManagement.tsx:118-120 | the add button leaves no person under edit |
| PeopleAdmin.PeopleManagement.EditPerson | src/components/admin/PeopleManagement.tsx:254-256 | a card's edit button opens the dialog on that person |
| PeopleAdmin.PeopleManagement.AddVendor | src/components/admin/PeopleManagement.tsx:279-281 | the vendor add button leaves no vendor under edit |
| PeopleAdmin.PeopleManagement.EditVendor | src/components/admin/PeopleManagement.tsx:429-431 | a vendor card's edit button opens the dialog on that vendor |
| PeopleAdmin.PeopleManagement.HandleSavePerson | src/components/admin/PeopleManagement.tsx:42-64 | the people collection becomes the replace-or-append result and only "jour-j-people" is written; the dialog closes and nothing is left under edit |
| PeopleAdmin.PeopleManagement.HandleSaveVendor | src/components/admin/PeopleManagement.tsx:66-89 | the same for vendors, writing only "jour-j-vendors" |
| PeopleAdmin.PeopleManagement.DeletePerson | src/components/admin/PeopleManagement.tsx:91-95 | people become the collection without that id; only people are saved |
| PeopleAdmin.PeopleManagement.DeleteVendor | src/components/admin/PeopleManagement.tsx:97-101 | the same for vendors |
| PeopleAdmin.AddThenDeletePerson | src/components/admin/PeopleManagement.tsx:42-95 | adding a person under a fresh stamp and deleting them leaves the people collection as it was |
| PlanningAdmin.OrDefault | src/components/admin/PlanningManagement.tsx:41-42 | `value \|\| fallback` on a form value that may be missing |
| PlanningAdmin.TaskRecord | src/components/admin/PlanningManagement.tsx:33-44 | status defaults to "scheduled" and priority to "medium" when left empty; the id is kept or "task-"+stamp; every other field comes from the form |
| PlanningAdmin.PlanningManagement.AddTask | src/components/admin/PlanningManagement.tsx:85-87 | the add button leaves no task under edit |
| PlanningAdmin.PlanningManagement.EditTask | src/components/admin/PlanningManagement.tsx:328-329 | a card's edit button opens the dialog on that task |
| PlanningAdmin.PlanningManagement.HandleSaveTask | src/components/admin/PlanningManagement.tsx:29-57 | tasks become the replace-or-append result and only "jour-j-tasks" is written; the dialog closes |
| PlanningAdmin.PlanningManagement.DeleteTask | src/components/admin/PlanningManagement.tsx:59-63 | tasks become the collection without that id; only tasks are saved |
| PlanningAdmin.PlanningManagement.SortListing | src/components/admin/PlanningManagement.tsx:259-260 | the task array is reordered in place into ascending start-time order, as a permutation; storage is not written |
| Sorting.LexLeTotal | src/components/admin/PlanningManagement.tsx:260 | any two start times compare one way or the other |
| Sorting.LexLeTrans | src/components/admin/PlanningManagement.tsx:260 | the comparison is transitive |
| Sorting.LexLeAntisym | src/components/admin/PlanningManagement.tsx:260 | start times that compare both ways are equal |
| Sorting.Insert | src/components/admin/PlanningManagement.tsx:260 | inserting adds exactly one element |
| Sorting.SortByStart | src/components/admin/PlanningManagement.tsx:260 | the sorted copy is a permutation of the input |
| Sorting.SortByStartSorted | src/components/admin/PlanningManagement.tsx:260 | the sorted copy is in ascending start-time order |
| Sorting.SortedPairwise | src/components/admin/PlanningManagement.tsx:260 | ascending between neighbours means ascending between any two positions |
| Sorting.SortByStartStable | src/components/admin/PlanningManagement.tsx:260 | tasks sharing a start time keep their relative order (`Array.prototype.sort` is stable) |
| Sorting.SortByStartSortedInput | src/components/admin/PlanningManagement.tsx:260 | sorting an already sorted list changes nothing |
| Sorting.SortByStartIdempotent | src/components/admin/PlanningManagement.tsx:260 | sorting twice is sorting once |
| TimeOfDay.ParseFormat | src/components/admin/PlanningManagement.tsx:72-79 | formatting a minute of the day as "HH:MM" and reading it back gives the same minute |
| TimeOfDay.FormatParse | src/components/admin/PlanningManagement.tsx:65-70 | reading a well-formed "HH:MM" and formatting it again gives the same string |
| TimeOfDay.EndTime | src/components/admin/PlanningManagement.tsx:72-79 | the end time is start + duration minutes, modulo a day; a start the clock cannot read gives "Invalid Date" |
| TimeOfDay.FormatTime | src/components/admin/PlanningManagement.tsx:65-70 | a well-formed start is shown as it is; anything else as "Invalid Date" |
| TimeOfDay.EndTimeWraps | src/components/team/PlanningTab.tsx:44-51 | 23:30 plus 60 minutes shows 00:30 |
| TimeOfDay.EndTimeDayPeriodic | src/components/team/PlanningTab.tsx:44-51 | a whole day more gives the same end time |
| TimeOfDay.EndTimeCompose | src/components/team/PlanningTab.tsx:44-51 | moving by a then by b is moving by a + b |
| Assignees.NameOf | src/components/admin/PlanningManagement.tsx:307 | one id contributes exactly the name of the first record carrying it when that name is non-empty, nothing when it is empty, and nothing when no record carries the id |
| Assignees.ResolveNames | src/components/team/PlanningTab.tsx:54-60 | at most one name per id, none of them empty |
| Assignees.ResolveNamesSingle | src/components/team/PlanningTab.tsx:54-56 | a one-id list resolves to that id's lookup, so with ResolveNamesAppend the result is the lookups of the ids concatenated in list order |
| Assignees.ResolveNamesShowsName | src/components/team/PlanningTab.tsx:54-56 | an assigned id whose first record has a non-empty name shows that name |
| Assignees.ResolveNamesAppend | src/components/team/PlanningTab.tsx:54-60 | the names follow the order of the assignment list |
| Assignees.ResolveAfterRemove | src/components/admin/PlanningManagement.tsx:307-313 | a deleted record's id dangles and is silently dropped: resolving against the collection without it is resolving the list without that id |
| Assignees.AssignedNames | src/components/team/PlanningTab.tsx:53-63 | the resolved person names form a prefix and the resolved vendor names the rest, at most one per assigned id, none empty |
| Assignees.AssignedNamesShown | src/components/team/PlanningTab.tsx:53-63 | every assigned person and vendor whose first record has a non-empty name is shown, persons in the first part and vendors in the second |
| Assignees.AssignedNamesAfterDelete | src/components/admin/PeopleManagement.tsx:91-93 | after a person is deleted, every task shows the names it would show had they never been assigned |
| Assignees.AssigneeLabelUnassigned | src/components/team/PlanningTab.tsx:104 | the label is "Non assigné" iff no name resolved, and the names joined by ", " otherwise |
| Seqs.JoinNonEmpty | src/components/team/PlanningTab.tsx:104 | joining a list with at least one non-empty part gives a non-empty string, so the fallback label cannot show while a name resolved |
| DocAdmin.DocumentRecord | src/components/admin/DocumentManagement.tsx:28-44 | `isLocal` iff the source is "local"; id and upload date kept from the edited document or minted; permission and assignments as the form gives them |
| DocAdmin.DocumentRecordCarriesOver | src/components/admin/DocumentManagement.tsx:34-43 | on edit, a non-empty id and upload date are carried over; on create, both are fresh |
| DocAdmin.AssigneeCount | src/components/admin/DocumentManagement.tsx:271-273 | the count shows iff it is positive, and equals the sum of both list lengths |
| DocAdmin.DocumentManagement.AddDocument | src/components/admin/DocumentManagement.tsx:69-71 | the add button leaves no document under edit |
| DocAdmin.DocumentManagement.EditDocument | src/components/admin/DocumentManagement.tsx:295-296 | a card's edit button opens the dialog on that document |
| DocAdmin.DocumentManagement.HandleSaveDocument | src/components/admin/DocumentManagement.tsx:28-57 | documents become the replace-or-append result and only "jour-j-documents" is written; the dialog closes |
| DocAdmin.DocumentManagement.DeleteDocument | src/components/admin/DocumentManagement.tsx:59-63 | documents become the collection without that id; only documents are saved |
| DocAdmin.ResaveKeepsDocument | src/components/admin/DocumentManagement.tsx:28-51 | re-saving an unchanged form for a listed document leaves that document exactly as it was |
| PlanningTabView.PersonalTasks | src/components/team/PlanningTab.tsx:164-165 | the personal list is in ascending start-time order and is a permutation of the viewer's tasks |
| PlanningTabView.PersonalTasksExactly | src/components/team/PlanningTab.tsx:164-165 | it holds exactly the tasks assigned to the selected viewer |
| PlanningTabView.SortGlobal | src/components/team/PlanningTab.tsx:195-196 | the session's task array is sorted in place, as a permutation; every other field of the session and the storage are unchanged |
| PlanningTabView.SortKeepsUserTasks | src/components/team/PlanningTab.tsx:195-196 | the in-place sort does not change which tasks the viewer is assigned |
| PlanningTabView.TaskAssigneeLabel | src/components/team/PlanningTab.tsx:104 | the line shows the joined names, or "Non assigné" when none resolves |
| DocumentsTabView.ListedDocuments | src/components/team/DocumentsTab.tsx:9-10 | the documents listed are the viewer's documents, none when no one is selected |
| DocumentsTabView.OpenDocument | src/components/team/DocumentsTab.tsx:36-44 | a local document opens under "/uploads/" + url; an external one opens as url verbatim |
| DocumentsTabView.Download | src/components/team/DocumentsTab.tsx:126-135 | a download control exists iff the document is local; its target is the open target and the file is saved under the title |
| DocumentsTabView.TypeTablesTotal | src/components/team/DocumentsTab.tsx:12-34 | the icon, colour and label tables are defined exactly on the five document types |
| DocumentsTabView.TypeTablesDistinct | src/components/team/DocumentsTab.tsx:12-34 | different types get different labels and icons |
| Dashboard.CurrentPerson | src/pages/PersonalDashboard.tsx:17-23 | the route id is looked up among people for "personal" and among vendors for anything else, including no type; the result carries that id, and is absent iff no record carries it |
| Dashboard.FirstThree | src/pages/PersonalDashboard.tsx:149-174 | the first min(n, 3) elements, in order |
| Dashboard.DashboardPage | src/pages/PersonalDashboard.tsx:14-40 | redirects iff no record matches or the route id is missing or empty; otherwise the header shows the record the route's id finds (with the role or vendor type under it), while the cards and the progress are the hook's own user tasks, documents and progress; completed is the number of completed listed tasks, and the recent lists are the first three of each |
| Dashboard.IntendedDashboardPage | src/pages/PersonalDashboard.tsx:30-40 | the same redirect; the header shows the record the route's id finds, and the cards list exactly that member's tasks and visible documents, with that member's completed count, progress and first three of each |
| Dashboard.MixedIdentities | src/pages/PersonalDashboard.tsx:14-40 | with a person in the route and no hook identity, the page as written lists no task while that person has one |
| Dashboard.HandleLogout | src/pages/PersonalDashboard.tsx:25-28 | logging out clears the team selection, in state and storage, and opens the home page |
| UserSelection.UserSelector.constructor | src/components/team/UserSelector.tsx:12-13 | kind "person" with no id chosen |
| UserSelection.UserSelector.ChooseType | src/components/team/UserSelector.tsx:50-63 | switching kind always clears the chosen id |
| UserSelection.UserSelector.ChooseId | src/components/team/UserSelector.tsx:79 | choosing an id keeps the kind |
| UserSelection.UserSelector.CandidateIds | src/components/team/UserSelector.tsx:79-115 | the select offers people's ids for "person" and vendors' ids otherwise |
| UserSelection.UserSelector.ConfirmDisabled | src/components/team/UserSelector.tsx:121 | confirm is disabled iff no id is chosen |
| UserSelection.UserSelector.HandleConfirm | src/components/team/UserSelector.tsx:15-19 | with no id nothing changes; otherwise the hook's identity becomes the chosen id and kind, in state and storage, and a chosen candidate is then found as the current user; the collections, the configuration, the loading flag and the error count are unchanged either way |
| AccessModal.TeamAccessModal.constructor | src/components/team/TeamAccessModal.tsx:16 | no type selected, no effect yet |
| AccessModal.TeamAccessModal.ClickCard | src/components/team/TeamAccessModal.tsx:53-70 | a card selects its type |
| AccessModal.TeamAccessModal.ContinueDisabled | src/components/team/TeamAccessModal.tsx:90 | continue is disabled iff no type is selected |
| AccessModal.TeamAccessModal.HandleContinue | src/components/team/TeamAccessModal.tsx:20-26 | nothing without a type; with one, the context's type is set and stored, then navigation to "/team-selection" and the close follow, in that order |
| AccessModal.TeamAccessModal.HandleClose | src/components/team/TeamAccessModal.tsx:28-31 | the selection is reset and the parent is told to close |
| AccessModal.PickAndContinue | src/components/team/TeamAccessModal.tsx:20-53 | picking a card and continuing leaves the context, and a fresh provider over the same store, holding that type |
| TeamSelectionPage.Split | src/pages/TeamSelection.tsx:95 | `split(' ')` gives at least one piece and no piece contains a space |
| TeamSelectionPage.JoinSplit | src/pages/TeamSelection.tsx:95 | joining the pieces with single spaces gives the name back |
| TeamSelectionPage.FirstCharsOfSplit | src/pages/TeamSelection.tsx:95 | the first characters of the pieces are exactly the characters that start a word, since empty pieces contribute nothing |
| TeamSelectionPage.Initials | src/pages/TeamSelection.tsx:95 | the initials are the first two word starts, at most 2 characters, no longer than the name, without spaces |
| TeamSelectionPage.InitialsOfTwoWords | src/pages/TeamSelection.tsx:95 | "Jo Li" gives "JL" |
| TeamSelectionPage.InitialsSkipEmptyWords | src/pages/TeamSelection.tsx:95 | " A  B C" gives "AB": leading and repeated spaces add nothing, and a third initial is cut off |
| TeamSelectionPage.TeamListing | src/pages/TeamSelection.tsx:21-55 | redirect iff no type is chosen; people for "personal", vendors for any other type |
| TeamSelectionPage.HandlePersonSelect | src/pages/TeamSelection.tsx:16-19 | the id is recorded in the context and in storage, and "/dashboard/" + id opens |
| Phone.FormatPhoneForTel | src/components/ui/PhoneNumberLink.tsx:13-15 | the output holds no '.', ' ' or '-', only characters of the input, and is no longer |
| Phone.FormatKeepsOthers | src/components/ui/PhoneNumberLink.tsx:14 | a character is in the output iff it is in the input and is not a separator |
| Phone.FormatIdempotent | src/components/ui/PhoneNumberLink.tsx:14 | formatting twice is formatting once |
| Phone.FormatLength | src/components/ui/PhoneNumberLink.tsx:14 | the length is kept iff the input has no separator |
| Phone.FormatAppend | src/components/ui/PhoneNumberLink.tsx:14 | formatting distributes over concatenation, so order is kept |
| Phone.PairsNormalise | src/components/ui/PhoneNumberLink.tsx:11 | n optionally separated digit pairs strip to exactly 2n digits |
| Phone.MatchNormalises | src/components/ui/PhoneNumberLink.tsx:11-14 | a matched number normalises to "+33" or "0" followed by exactly nine digits, the first in 1..9 |
| Phone.TelLink | src/components/ui/PhoneNumberLink.tsx:25 | the link is "tel:" followed by the normalised number |
| Phone.TelLinkIgnoresSeparators | src/components/ui/PhoneNumberLink.tsx:14-25 | a number with separators and the same number without them give the same link |

## Left out

- JSON syntax is not modelled. A stored collection is held as its value. Content `JSON.parse` rejects is `Garbled`. A parsable value of the wrong shape for its key is treated as a parse failure, though the real load would accept it and fail later.
- Identity keys are modelled as holding text, as the hooks write them. A stored JSON payload under an identity key is treated as absent.
- `console.error` is modelled as a count of logged failures (`errorsLogged`).
- The 30-second refresh timer and its cleanup are not modelled. `TeamView.TeamData.LoadData` can be called any number of times.
- React state batching and re-rendering are not modelled. Each setter takes effect at once and in program order.
- `Date.now()` ids and `new Date().toISOString()` dates are parameters (`stamp`, `now`). Nothing guarantees they are unique, and the model does not assume so.
- `TeamView.Percent`: `Math.round` on a floating-point quotient is modelled by exact rational half-up rounding. Floating-point edge cases are not modelled.
- `TimeOfDay.EndTime`: start times other than "HH:MM" with hours 00–23 are taken as unreadable. The `Date` constructor's wider formats (seconds, "24:00", offsets) and daylight-saving shifts are not modelled.
- `PlanningAdmin.TaskRecord`: `parseInt` of the duration field is taken as already done; a `NaN` duration is not modelled.
- `Sorting.LexLe`: `localeCompare` is modelled as lexicographic order on characters. This is what it gives on "HH:MM" strings, but it is not the locale's collation in general.
- `window.open`, `navigate`, `document.createElement` and clicking a link are effects. They are modelled as returned targets or paths and as the modal's effect list.
- The rendered markup is not modelled: JSX, dialogs, toasts, badges, the role and vendor colour maps, and dates shown with `toLocaleDateString`.
- `renderWithPhoneLinks` is not modelled, because it depends on the regex `split` semantics. The phone pattern is modelled only as a recogniser of one whole matched number (`Phone.MatchesPhone`).
- Text fields and the `required` selects (role, vendor type, task category, document type, permission) read with `formData.get` are taken to be present strings. The missing (`null`) case is modelled only for the confirmed switch, the optional status and priority selects, and the document source.
- EventConfiguration.tsx, EventPortal.tsx, ContactsTab.tsx, AdminPortal.tsx, Index.tsx and App.tsx are not part of this model: they are form plumbing, routing and presentation.
- `Dashboard.DashboardPage`: the redirect's navigation to "/" is represented by the `Redirect` page. The header's badges are not modelled.

## Findings

| source | as written | input that shows it | evidently intended | confidence | as-written member | corrected member |
|---|---|---|---|---|---|---|
| src/pages/PersonalDashboard.tsx:14-40 | the header shows the member named by the route's `personId`, but the task and document cards and the progress come from `useTeamData`'s own `selectedUser`, which the team-selection flow never sets | team type "personal", route `/dashboard/p1`, person "p1" assigned one task, participant hook with no selected user: the dashboard of "p1" lists no task and shows 0% | the cards and progress belong to the member the header shows | not executed; medium | Dashboard.MixedIdentities | Dashboard.IntendedDashboardPage |

=== FILE: access_modal.dfy ===
/**
 * The team-access dialog (`TeamAccessModal`): a team type picked on one of
 * two cards, confirmed into the team-selection context.
 */
module AccessModal {
  import opened Wrappers
  import opened Storage
  import opened SelectionContext

  const TeamSelectionPath: string := "/team-selection"

  /** The effects the dialog has outside its own state, in order: navigation and the parent's `onClose`. */
  datatype Effect = Navigate(path: string) | Closed

  class TeamAccessModal {
    const ctx: TeamSelection
    var selectedType: Option<string>
    var effects: seq<Effect>

    /** The selected type, when there is one, is one of the two cards. */
    predicate Valid()
      reads this
    {
      selectedType.Some? ==> selectedType.value == Personal || selectedType.value == Professional
    }

    constructor (ctx: TeamSelection)
      ensures this.ctx == ctx
      ensures selectedType == None && effects == []
      ensures Valid()
    {
      this.ctx := ctx;
      selectedType := None;
      effects := [];
    }

    /** Clicking a card selects its type. */
    method ClickCard(kind: string)
      requires kind == Personal || kind == Professional
      modifies this
      ensures selectedType == Some(kind) && effects == old(effects)
      ensures Valid()
    {
      selectedType := Some(kind);
    }

    /** The continue button is disabled exactly when no type is selected. */
    function ContinueDisabled(): (r: bool)
      reads this
      ensures r <==> selectedType.None?
    {
      selectedType.None?
    }

    /**
     * `handleContinue`: nothing without a type; with one, the context's team
     * type is set (and stored), then the page navigates to the team
     * selection and the dialog closes. The dialog's own selection is kept.
     */
    method HandleContinue()
      requires Valid()
      modifies this, ctx, ctx.store
      ensures selectedType == old(selectedType) && Valid()
      ensures selectedType.None? ==> effects == old(effects) && ctx.store.items == old(ctx.store.items)
      ensures selectedType.None? ==> ctx.selectedTeamType == old(ctx.selectedTeamType)
      ensures selectedType.Some? ==> ctx.selectedTeamType == selectedType
      ensures selectedType.Some? ==> ctx.store.items == old(ctx.store.items)[TeamTypeKey := Text(selectedType.value)]
      ensures selectedType.Some? ==> effects == old(effects) + [Navigate(TeamSelectionPath), Closed]
      ensures ctx.selectedPersonId == old(ctx.selectedPersonId)
    {
      if selectedType.Some? {
        ctx.SetTeamType(selectedType.value);
        effects := effects + [Navigate(TeamSelectionPath), Closed];
      }
    }

    /** `handleClose`: the selection is reset and the parent is told to close. */
    method HandleClose()
      modifies this
      ensures selectedType == None && effects == old(effects) + [Closed]
      ensures Valid()
    {
      selectedType := None;
      effects := effects + [Closed];
    }
  }

  /** Picking a card and continuing leaves the context holding that type, surviving a remount of the provider. */
  method PickAndContinue(modal: TeamAccessModal, kind: string) returns (remounted: TeamSelection)
    requires kind == Personal || kind == Professional
    modifies modal, modal.ctx, modal.ctx.store
    ensures modal.ctx.selectedTeamType == Some(kind)
    ensures modal.effects == old(modal.effects) + [Navigate(TeamSelectionPath), Closed]
    ensures remounted.selectedTeamType == Some(kind)
  {
    modal.ClickCard(kind);
    modal.HandleContinue();
    remounted := new TeamSelection(modal.ctx.store);
    remounted.RestoreSaved();
  }
}

=== FILE: admin_data.dfy ===
/**
 * The organizer repository (`useAdminData`): in-memory collections and the
 * event configuration, loaded once from storage at mount, and one
 * write-through `save` per collection.
 */
module Admin {
  import opened Wrappers
  import opened Records
  import opened Storage

  class AdminData {
    const store: LocalStore
    var people: seq<Person>
    var vendors: seq<Vendor>
    var tasks: seq<Task>
    var documents: seq<Document>
    var eventConfig: EventConfig
    /** Number of load failures reported with `console.error`. */
    var errorsLogged: nat

    /** The hook's initial state, before the mount effect runs; `now` is the clock's ISO timestamp. */
    constructor (store: LocalStore, now: string)
      ensures this.store == store
      ensures people == [] && vendors == [] && tasks == [] && documents == []
      ensures eventConfig.id == "1" && eventConfig.name == "Mon Événement" && eventConfig.kind == "Mariage"
      ensures eventConfig.date == now && eventConfig.location == "" && eventConfig.description == ""
      ensures eventConfig.primaryColor == "#9333ea" && eventConfig.secondaryColor == "#e879f9"
      ensures eventConfig.logo == None && eventConfig.timezone == "Europe/Paris"
      ensures errorsLogged == 0
    {
      this.store := store;
      people, vendors, tasks, documents := [], [], [], [];
      eventConfig := DefaultEventConfig(now);
      errorsLogged := 0;
    }

    /**
     * The mount-time load: every collection whose key the load reaches is
     * overwritten with the stored value, the others keep their value; a parse
     * failure is caught and logged, never propagated.
     */
    method LoadSaved()
      modifies this
      ensures people == Restore(old(store.items)).people.GetOr(old(people))
      ensures vendors == Restore(old(store.items)).vendors.GetOr(old(vendors))
      ensures tasks == Restore(old(store.items)).tasks.GetOr(old(tasks))
      ensures documents == Restore(old(store.items)).documents.GetOr(old(documents))
      ensures eventConfig == Restore(old(store.items)).config.GetOr(old(eventConfig))
      ensures errorsLogged == old(errorsLogged) + (if Restore(old(store.items)).failed then 1 else 0)
      ensures store.items == old(store.items)
    {
      var r := Restore(store.items);
      people := r.people.GetOr(people);
      vendors := r.vendors.GetOr(vendors);
      tasks := r.tasks.GetOr(tasks);
      documents := r.documents.GetOr(documents);
      eventConfig := r.config.GetOr(eventConfig);
      errorsLogged := errorsLogged + if r.failed then 1 else 0;
    }

    method SavePeople(newPeople: seq<Person>)
      modifies this, store
      ensures people == newPeople
      ensures store.items == old(store.items)[PeopleKey := PeopleJson(newPeople)]
      ensures vendors == old(vendors) && tasks == old(tasks) && documents == old(documents)
      ensures eventConfig == old(eventConfig) && errorsLogged == old(errorsLogged)
    {
      people := newPeople;
      store.SetItem(PeopleKey, PeopleJson(newPeople));
    }

    method SaveVendors(newVendors: seq<Vendor>)
      modifies this, store
      ensures vendors == newVendors
      ensures store.items == old(store.items)[VendorsKey := VendorsJson(newVendors)]
      ensures people == old(people) && tasks == old(tasks) && documents == old(documents)
      ensures eventConfig == old(eventConfig) && errorsLogged == old(errorsLogged)
    {
      vendors := newVendors;
      store.SetItem(VendorsKey, VendorsJson(newVendors));
    }

    method SaveTasks(newTasks: seq<Task>)
      modifies this, store
      ensures tasks == newTasks
      ensures store.items == old(store.items)[TasksKey := TasksJson(newTasks)]
      ensures people == old(people) && vendors == old(vendors) && documents == old(documents)
      ensures eventConfig == old(eventConfig) && errorsLogged == old(errorsLogged)
    {
      tasks := newTasks;
      store.SetItem(TasksKey, TasksJson(newTasks));
    }

    method SaveDocuments(newDocuments: seq<Document>)
      modifies this, store
      ensures documents == newDocuments
      ensures store.items == old(store.items)[DocumentsKey := DocumentsJson(newDocuments)]
      ensures people == old(people) && vendors == old(vendors) && tasks == old(tasks)
      ensures eventConfig == old(eventConfig) && errorsLogged == old(errorsLogged)
    {
      documents := newDocuments;
      store.SetItem(DocumentsKey, DocumentsJson(newDocuments));
    }

    method SaveEventConfig(newConfig: EventConfig)
      modifies this, store
      ensures eventConfig == newConfig
      ensures store.items == old(store.items)[EventConfigKey := ConfigJson(newConfig)]
      ensures people == old(people) && vendors == old(vendors) && tasks == old(tasks)
      ensures documents == old(documents) && errorsLogged == old(errorsLogged)
    {
      eventConfig := newConfig;
      store.SetItem(EventConfigKey, ConfigJson(newConfig));
    }
  }

  /** Saving the same collection twice leaves state and storage as saving it once. */
  method SaveTasksTwice(admin: AdminData, x: seq<Task>)
    modifies admin, admin.store
    ensures admin.tasks == x
    ensures admin.store.items == old(admin.store.items)[TasksKey := TasksJson(x)]
    ensures admin.people == old(admin.people) && admin.vendors == old(admin.vendors) && admin.documents == old(admin.documents)
    ensures admin.eventConfig == old(admin.eventConfig) && admin.errorsLogged == old(admin.errorsLogged)
  {
    admin.SaveTasks(x);
    admin.SaveTasks(x);
  }

  /**
   * Round trip through storage: what a save writes is what the next mount of
   * the hook loads, provided the store was readable before the save.
   */
  method SaveThenRemount(admin: AdminData, x: seq<Person>, now: string) returns (remounted: AdminData)
    requires Readable(admin.store.items)
    modifies admin, admin.store
    ensures remounted.store == admin.store
    ensures remounted.people == x
    ensures remounted.vendors == VendorsIn(old(admin.store.items)).GetOr([])
    ensures remounted.tasks == TasksIn(old(admin.store.items)).GetOr([])
    ensures remounted.documents == DocumentsIn(old(admin.store.items)).GetOr([])
    ensures remounted.eventConfig == ConfigIn(old(admin.store.items)).GetOr(DefaultEventConfig(now))
    ensures remounted.errorsLogged == 0
  {
    admin.SavePeople(x);
    WriteKeepsReadable(old(admin.store.items), PeopleKey, PeopleJson(x));
    RestoreReadable(admin.store.items);
    remounted := new AdminData(admin.store, now);
    remounted.LoadSaved();
  }
}

=== FILE: assignees.dfy ===
/**
 * Assignee-name resolution, `ids.map(id => records.find(r => r.id === id)?.name).filter(Boolean)`,
 * as both planning views use it: every id is looked up, ids with no record
 * and records with an empty name are dropped without error, and the names
 * that remain follow the order of the assignment list.
 */
module Assignees {
  import opened Wrappers
  import opened Records
  import opened Seqs
  import opened Edits

  const Unassigned: string := "Non assigné"
  const NameSeparator: string := ", "

  /** The name the lookup of one id contributes: none when no record carries the id or its name is empty. */
  function NameOf<T>(id: string, records: seq<T>, idOf: T -> string, nameOf: T -> string): (r: seq<string>)
    ensures |r| <= 1
    ensures r != [] ==> r[0] != "" && exists j :: 0 <= j < |records| && idOf(records[j]) == id && nameOf(records[j]) == r[0]
    ensures (forall j :: 0 <= j < |records| ==> idOf(records[j]) != id) ==> r == []
    ensures forall j :: 0 <= j < |records| && idOf(records[j]) == id && (forall k :: 0 <= k < j ==> idOf(records[k]) != id) ==>
      r == (if nameOf(records[j]) != "" then [nameOf(records[j])] else [])
  {
    var carriesId := (x: T) => idOf(x) == id;
    match Find(records, carriesId)
    case Some(x) =>
      assert exists j :: 0 <= j < |records| && records[j] == x;
      assert forall j :: 0 <= j < |records| && idOf(records[j]) == id && (forall k :: 0 <= k < j ==> idOf(records[k]) != id) ==> x == records[j] by {
        forall j | 0 <= j < |records| && idOf(records[j]) == id && (forall k :: 0 <= k < j ==> idOf(records[k]) != id)
          ensures x == records[j]
        {
          FindFirst(records, carriesId, j);
        }
      }
      if nameOf(x) != "" then [nameOf(x)] else []
    case None => []
  }

  /** Resolution of a whole assignment list. */
  function ResolveNames<T>(ids: seq<string>, records: seq<T>, idOf: T -> string, nameOf: T -> string): (r: seq<string>)
    ensures |r| <= |ids|
    ensures forall n :: n in r ==> n != ""
  {
    if ids == [] then []
    else NameOf(ids[0], records, idOf, nameOf) + ResolveNames(ids[1..], records, idOf, nameOf)
  }

  /** A one-id list resolves to what the lookup of that id contributes. */
  lemma ResolveNamesSingle<T>(id: string, records: seq<T>, idOf: T -> string, nameOf: T -> string)
    ensures ResolveNames([id], records, idOf, nameOf) == NameOf(id, records, idOf, nameOf)
  {
    assert [id][1..] == [];
  }

  /**
   * An assigned id shows the name of the first record carrying it, whenever
   * that name is non-empty.
   */
  lemma {:induction false} ResolveNamesShowsName<T>(ids: seq<string>, records: seq<T>, idOf: T -> string, nameOf: T -> string, i: nat, j: nat)
    requires i < |ids| && j < |records|
    requires idOf(records[j]) == ids[i] && nameOf(records[j]) != ""
    requires forall k :: 0 <= k < j ==> idOf(records[k]) != ids[i]
    ensures nameOf(records[j]) in ResolveNames(ids, records, idOf, nameOf)
  {
    var rest := ResolveNames(ids[1..], records, idOf, nameOf);
    if i == 0 {
      assert NameOf(ids[0], records, idOf, nameOf) == [nameOf(records[j])];
    } else {
      ResolveNamesShowsName(ids[1..], records, idOf, nameOf, i - 1, j);
      assert nameOf(records[j]) in rest;
    }
  }

  /** The names follow the assignment list: resolution distributes over concatenation. */
  lemma {:induction false} ResolveNamesAppend<T>(a: seq<string>, b: seq<string>, records: seq<T>, idOf: T -> string, nameOf: T -> string)
    ensures ResolveNames(a + b, records, idOf, nameOf) == ResolveNames(a, records, idOf, nameOf) + ResolveNames(b, records, idOf, nameOf)
  {
    if a != [] {
      assert (a + b)[1..] == a[1..] + b;
      ResolveNamesAppend(a[1..], b, records, idOf, nameOf);
    } else {
      assert a + b == b;
    }
  }

  /**
   * Deleting a record makes its id dangle, and a dangling id is dropped:
   * resolving against the collection without the record named `id` is
   * resolving the list without `id` against the whole collection.
   */
  lemma {:induction false} ResolveAfterRemove<T>(ids: seq<string>, records: seq<T>, idOf: T -> string, nameOf: T -> string, id: string)
    ensures ResolveNames(ids, RemoveId(records, idOf, id), idOf, nameOf)
         == ResolveNames(Filter(ids, (i: string) => i != id), records, idOf, nameOf)
  {
    if ids != [] {
      var keep := (i: string) => i != id;
      ResolveAfterRemove(ids[1..], records, idOf, nameOf, id);
      FilterAppend([ids[0]], ids[1..], keep);
      assert ids == [ids[0]] + ids[1..];
      assert [ids[0]][1..] == [];
      var rest := Filter(ids[1..], keep);
      if ids[0] == id {
        var kept := RemoveId(records, idOf, id);
        assert forall j :: 0 <= j < |kept| ==> kept[j] in kept;
        assert NameOf(ids[0], kept, idOf, nameOf) == [];
        assert Filter(ids, keep) == rest;
      } else {
        FindIgnoresDropped(records, (y: T) => idOf(y) != id, (x: T) => idOf(x) == ids[0]);
        assert Filter(ids, keep) == [ids[0]] + rest;
        assert ([ids[0]] + rest)[1..] == rest;
      }
    }
  }

  /** `getAssignedNames`: the resolved person names followed by the resolved vendor names. */
  function AssignedNames(t: Task, people: seq<Person>, vendors: seq<Vendor>): (r: seq<string>)
    ensures |r| <= |t.assignedTo| + |t.assignedVendors|
    ensures forall n :: n in r ==> n != ""
    ensures var persons := ResolveNames(t.assignedTo, people, PersonId, PersonName);
      persons <= r && r[|persons|..] == ResolveNames(t.assignedVendors, vendors, VendorId, VendorName)
  {
    var persons := ResolveNames(t.assignedTo, people, PersonId, PersonName);
    var r := persons + ResolveNames(t.assignedVendors, vendors, VendorId, VendorName);
    assert r[..|persons|] == persons;
    r
  }

  /**
   * Every assigned person and every assigned vendor whose first record has a
   * non-empty name is shown: person names among the first part, vendor names
   * among the second.
   */
  lemma AssignedNamesShown(t: Task, people: seq<Person>, vendors: seq<Vendor>, i: nat, j: nat)
    ensures i < |t.assignedTo| && j < |people| && people[j].id == t.assignedTo[i] && people[j].name != ""
      && (forall k :: 0 <= k < j ==> people[k].id != t.assignedTo[i])
      ==> people[j].name in ResolveNames(t.assignedTo, people, PersonId, PersonName)
    ensures i < |t.assignedVendors| && j < |vendors| && vendors[j].id == t.assignedVendors[i] && vendors[j].name != ""
      && (forall k :: 0 <= k < j ==> vendors[k].id != t.assignedVendors[i])
      ==> vendors[j].name in AssignedNames(t, people, vendors)[|ResolveNames(t.assignedTo, people, PersonId, PersonName)|..]
  {
    if i < |t.assignedTo| && j < |people| && people[j].id == t.assignedTo[i] && people[j].name != ""
      && (forall k :: 0 <= k < j ==> people[k].id != t.assignedTo[i])
    {
      ResolveNamesShowsName(t.assignedTo, people, PersonId, PersonName, i, j);
    }
    if i < |t.assignedVendors| && j < |vendors| && vendors[j].id == t.assignedVendors[i] && vendors[j].name != ""
      && (forall k :: 0 <= k < j ==> vendors[k].id != t.assignedVendors[i])
    {
      ResolveNamesShowsName(t.assignedVendors, vendors, VendorId, VendorName, i, j);
    }
  }

  function PersonName(p: Person): string { p.name }
  function VendorName(v: Vendor): string { v.name }

  /**
   * Once a person is deleted, every task that named them shows the names it
   * would show had that person never been assigned.
   */
  lemma AssignedNamesAfterDelete(t: Task, people: seq<Person>, vendors: seq<Vendor>, id: string)
    ensures AssignedNames(t, RemoveId(people, PersonId, id), vendors)
         == AssignedNames(t.(assignedTo := Filter(t.assignedTo, (i: string) => i != id)), people, vendors)
  {
    ResolveAfterRemove(t.assignedTo, people, PersonId, PersonName, id);
  }

  /** `getAssignedNames(task).join(', ') || 'Non assigné'`. */
  function AssigneeLabel(names: seq<string>): (r: string)
  {
    var joined := Join(names, NameSeparator);
    if joined == "" then Unassigned else joined
  }

  /** The fallback label shows exactly when no name resolved. */
  lemma AssigneeLabelUnassigned(names: seq<string>)
    requires forall n :: n in names ==> n != ""
    ensures names == [] ==> AssigneeLabel(names) == Unassigned
    ensures names != [] ==> AssigneeLabel(names) == Join(names, NameSeparator)
  {
    if names != [] {
      assert names[0] in names;
      JoinNonEmpty(names, NameSeparator);
    }
  }
}

=== FILE: dashboard.dfy ===
/**
 * The participant's personal dashboard (`PersonalDashboard`). The header is
 * chosen by the route's person id and the team-selection context; the task
 * and document cards and the progress come from the participant hook's own
 * identity, which is a different mechanism.
 */
module Dashboard {
  import opened Wrappers
  import opened Records
  import opened Seqs
  import opened TeamView
  import opened SelectionContext

  /** The record the header shows: a person or a vendor. */
  datatype Member = PersonMember(person: Person) | VendorMember(vendor: Vendor)
  {
    function Id(): string
    {
      match this
      case PersonMember(p) => p.id
      case VendorMember(v) => v.id
    }
  }

  /**
   * `getCurrentPerson`: the route's id looked up among people when the team
   * type is "personal", among vendors for any other value, including none.
   * A missing route id matches nothing.
   */
  function CurrentPerson(teamType: Option<string>, personId: Option<string>, people: seq<Person>, vendors: seq<Vendor>): (r: Option<Member>)
    ensures personId.None? ==> r.None?
    ensures r.Some? ==> r.value.Id() == personId.value
    ensures r.Some? && teamType == Some(Personal) ==> r.value.PersonMember? && r.value.person in people
    ensures r.Some? && teamType != Some(Personal) ==> r.value.VendorMember? && r.value.vendor in vendors
    ensures personId.Some? && teamType == Some(Personal) ==>
              (r.None? <==> forall i :: 0 <= i < |people| ==> people[i].id != personId.value)
    ensures personId.Some? && teamType != Some(Personal) ==>
              (r.None? <==> forall i :: 0 <= i < |vendors| ==> vendors[i].id != personId.value)
  {
    match personId
    case None => None
    case Some(id) =>
      if teamType == Some(Personal) then
        match Find(people, (p: Person) => p.id == id)
        case Some(p) => Some(PersonMember(p))
        case None => None
      else
        match Find(vendors, (v: Vendor) => v.id == id)
        case Some(v) => Some(VendorMember(v))
        case None => None
  }

  /** `slice(0, 3)`. */
  function FirstThree<T>(s: seq<T>): (r: seq<T>)
    ensures |r| <= 3
    ensures |r| == if |s| < 3 then |s| else 3
    ensures forall i :: 0 <= i < |r| ==> r[i] == s[i]
  {
    if |s| <= 3 then s else s[..3]
  }

  /** What the page renders: a redirect to the home page, or the dashboard. */
  datatype Page =
    | Redirect
    | Show(member: Member, subtitle: string, tasks: seq<Task>, documents: seq<Document>,
           completed: nat, progress: nat, recentTasks: seq<Task>, recentDocuments: seq<Document>)

  /** The header's second line: the person's role, or the vendor's type. */
  function Subtitle(m: Member): string
  {
    match m
    case PersonMember(p) => p.role
    case VendorMember(v) => v.kind
  }

  /**
   * The page as written: redirect when no record matches or the route id is
   * missing or empty; otherwise the cards and the progress come from the
   * hook's selected user and user type, not from the route's id.
   */
  function DashboardPage(teamType: Option<string>, personId: Option<string>, team: TeamData): (r: Page)
    reads team
    ensures r.Redirect? <==> CurrentPerson(teamType, personId, team.people, team.vendors).None? || personId == Some("")
    ensures r.Show? ==> CurrentPerson(teamType, personId, team.people, team.vendors) == Some(r.member)
    ensures r.Show? && r.member.PersonMember? ==> r.subtitle == r.member.person.role
    ensures r.Show? && r.member.VendorMember? ==> r.subtitle == r.member.vendor.kind
    ensures r.Show? ==> r.tasks == team.GetUserTasks() && r.documents == team.GetUserDocuments()
    ensures r.Show? ==> r.completed == CompletedCount(r.tasks) && r.completed <= |r.tasks|
    ensures r.Show? ==> r.progress == team.GetUserProgress() && r.progress <= 100
    ensures r.Show? ==> r.recentTasks == FirstThree(r.tasks) && r.recentDocuments == FirstThree(r.documents)
  {
    match CurrentPerson(teamType, personId, team.people, team.vendors)
    case None => Redirect
    case Some(m) =>
      if personId == Some("") then Redirect
      else
        var tasks := team.GetUserTasks();
        var done := CompletedTasks(tasks);
        Show(m, Subtitle(m), tasks, team.GetUserDocuments(), |done|,
             Percent(|done|, |tasks|), FirstThree(tasks), FirstThree(team.GetUserDocuments()))
  }

  const HomePath: string := "/"

  /** `handleLogout`: the team selection is cleared (state and storage) and the home page opens. */
  method HandleLogout(ctx: TeamSelection) returns (path: string)
    modifies ctx, ctx.store
    ensures ctx.selectedTeamType == None && ctx.selectedPersonId == None
    ensures ctx.store.items == old(ctx.store.items) - {TeamTypeKey, PersonIdKey}
    ensures path == HomePath
  {
    ctx.ClearSelection();
    path := HomePath;
  }

  /** The hook's user type that matches a team type of the selection context. */
  function UserTypeFor(teamType: Option<string>): string
  {
    if teamType == Some(Personal) then PersonType else VendorType
  }

  /**
   * The page as evidently intended: the cards and the progress belong to the
   * member the header shows.
   */
  function IntendedDashboardPage(teamType: Option<string>, personId: Option<string>, team: TeamData): (r: Page)
    reads team
    ensures r.Redirect? <==> CurrentPerson(teamType, personId, team.people, team.vendors).None? || personId == Some("")
    ensures r.Show? ==> CurrentPerson(teamType, personId, team.people, team.vendors) == Some(r.member)
    ensures r.Show? ==> forall t :: t in r.tasks <==> t in team.tasks && AssignedTask(t, r.member.Id(), UserTypeFor(teamType))
    ensures r.Show? ==> r.documents == UserDocuments(team.documents, r.member.Id(), UserTypeFor(teamType))
    ensures r.Show? ==> r.completed == CompletedCount(r.tasks) && r.completed <= |r.tasks|
    ensures r.Show? ==> r.progress == UserProgress(team.tasks, r.member.Id(), UserTypeFor(teamType)) && r.progress <= 100
    ensures r.Show? ==> r.recentTasks == FirstThree(r.tasks) && r.recentDocuments == FirstThree(r.documents)
  {
    match CurrentPerson(teamType, personId, team.people, team.vendors)
    case None => Redirect
    case Some(m) =>
      if personId == Some("") then Redirect
      else
        var tasks := UserTasks(team.tasks, m.Id(), UserTypeFor(teamType));
        var documents := UserDocuments(team.documents, m.Id(), UserTypeFor(teamType));
        var done := CompletedTasks(tasks);
        assert forall t :: t in tasks <==> t in team.tasks && AssignedTask(t, m.Id(), UserTypeFor(teamType)) by {
          forall t {
            UserTasksExactly(team.tasks, m.Id(), UserTypeFor(teamType), t);
          }
        }
        Show(m, Subtitle(m), tasks, documents, |done|,
             Percent(|done|, |tasks|), FirstThree(tasks), FirstThree(documents))
  }

  /**
   * As written, the header shows the route's person while the cards show the
   * hook's selected user: with person "p1" in the route and no hook identity
   * (the state the team-selection flow leaves), a task assigned to "p1" is not listed.
   */
  method MixedIdentities() returns (page: Page, intended: Page)
    ensures page.Show? && page.member.Id() == "p1" && page.tasks == []
    ensures intended.Show? && intended.member.Id() == "p1" && |intended.tasks| == 1
  {
    var store := new Storage.LocalStore(map[]);
    var team := new TeamData(store);
    var alice := Person("p1", "Alice", "", "", "mariée", "", true);
    var task := Task("task-1", "Cérémonie", "14:00", 60, "cérémonie", ["p1"], [], Scheduled, "", Medium);
    team.people := [alice];
    team.tasks := [task];
    assert Find(team.people, (p: Person) => p.id == "p1") == Some(alice);
    page := DashboardPage(Some(Personal), Some("p1"), team);
    intended := IntendedDashboardPage(Some(Personal), Some("p1"), team);
    assert task in intended.tasks;
  }
}

=== FILE: doc_admin.dfy ===
/**
 * The organizer's document page (`DocumentManagement`): the document form
 * that edits, adds or deletes one document, and what each listed card shows.
 */
module DocAdmin {
  import opened Wrappers
  import opened Records
  import opened Storage
  import opened Edits
  import Admin

  /** The source select's value for an uploaded file. */
  const LocalSource: string := "local"

  /** The submitted document form. Permission and assignment lists are taken as given, unvalidated. */
  datatype DocumentForm = DocumentForm(
    title: string,
    kind: string,
    url: string,
    docType: Option<string>,
    assignedTo: seq<string>,
    assignedVendors: seq<string>,
    permission: string,
    category: string)

  function UploadDate(d: Document): string { d.uploadDate }

  /**
   * The document `handleSaveDocument` builds: local exactly when the source
   * select says "local"; id and upload date carried over from the edited
   * document when non-empty, "doc-" plus the stamp and the clock's date otherwise.
   */
  function DocumentRecord(form: DocumentForm, editing: Option<Document>, stamp: string, now: string): (r: Document)
    ensures r.isLocal <==> form.docType == Some(LocalSource)
    ensures r.id == KeptOr(editing, DocumentId, "doc-" + stamp)
    ensures r.uploadDate == KeptOr(editing, UploadDate, now)
    ensures r.permission == form.permission && r.assignedTo == form.assignedTo && r.assignedVendors == form.assignedVendors
    ensures r.title == form.title && r.kind == form.kind && r.url == form.url && r.category == form.category
  {
    Document(
      id := KeptOr(editing, DocumentId, "doc-" + stamp),
      title := form.title,
      kind := form.kind,
      url := form.url,
      isLocal := form.docType == Some(LocalSource),
      assignedTo := form.assignedTo,
      assignedVendors := form.assignedVendors,
      permission := form.permission,
      category := form.category,
      uploadDate := KeptOr(editing, UploadDate, now))
  }

  /** Editing a document with a non-empty id and date keeps both; a new document gets the stamp's id and the clock's date. */
  lemma DocumentRecordCarriesOver(form: DocumentForm, editing: Option<Document>, stamp: string, now: string)
    ensures editing.Some? && editing.value.id != "" ==> DocumentRecord(form, editing, stamp, now).id == editing.value.id
    ensures editing.Some? && editing.value.uploadDate != "" ==> DocumentRecord(form, editing, stamp, now).uploadDate == editing.value.uploadDate
    ensures editing.None? ==> DocumentRecord(form, editing, stamp, now).id == "doc-" + stamp
    ensures editing.None? ==> DocumentRecord(form, editing, stamp, now).uploadDate == now
  {
  }

  /** The "assigned to n person(s)" line: shown only when some list is non-empty, with the sum of both lengths. */
  function AssigneeCount(d: Document): (r: Option<nat>)
    ensures r.Some? <==> |d.assignedTo| + |d.assignedVendors| > 0
    ensures r.Some? ==> r.value == |d.assignedTo| + |d.assignedVendors| && r.value > 0
  {
    if |d.assignedTo| > 0 || |d.assignedVendors| > 0 then Some(|d.assignedTo| + |d.assignedVendors|) else None
  }

  class DocumentManagement {
    const admin: Admin.AdminData
    var editingDocument: Option<Document>
    var dialogOpen: bool

    constructor (admin: Admin.AdminData)
      ensures this.admin == admin
      ensures editingDocument == None && !dialogOpen
    {
      this.admin := admin;
      editingDocument := None;
      dialogOpen := false;
    }

    method AddDocument()
      modifies this
      ensures editingDocument == None && dialogOpen
    {
      editingDocument := None;
      dialogOpen := true;
    }

    method EditDocument(d: Document)
      modifies this
      ensures editingDocument == Some(d) && dialogOpen
    {
      editingDocument := Some(d);
      dialogOpen := true;
    }

    /** `handleSaveDocument`: replace or append, save only the documents, close the dialog. */
    method HandleSaveDocument(form: DocumentForm, stamp: string, now: string)
      modifies this, admin, admin.store
      ensures admin.documents == SaveEdited(old(admin.documents), DocumentId, old(editingDocument),
                                            DocumentRecord(form, old(editingDocument), stamp, now))
      ensures admin.store.items == old(admin.store.items)[DocumentsKey := DocumentsJson(admin.documents)]
      ensures admin.people == old(admin.people) && admin.vendors == old(admin.vendors) && admin.tasks == old(admin.tasks)
      ensures admin.eventConfig == old(admin.eventConfig) && admin.errorsLogged == old(admin.errorsLogged)
      ensures editingDocument == None && !dialogOpen
    {
      var record := DocumentRecord(form, editingDocument, stamp, now);
      admin.SaveDocuments(SaveEdited(admin.documents, DocumentId, editingDocument, record));
      editingDocument := None;
      dialogOpen := false;
    }

    /** `deleteDocument`: every document with that id goes, the others stay in order. */
    method DeleteDocument(id: string)
      modifies admin, admin.store
      ensures admin.documents == RemoveId(old(admin.documents), DocumentId, id)
      ensures admin.store.items == old(admin.store.items)[DocumentsKey := DocumentsJson(admin.documents)]
      ensures admin.people == old(admin.people) && admin.vendors == old(admin.vendors) && admin.tasks == old(admin.tasks)
      ensures admin.eventConfig == old(admin.eventConfig) && admin.errorsLogged == old(admin.errorsLogged)
    {
      admin.SaveDocuments(RemoveId(admin.documents, DocumentId, id));
    }
  }

  /**
   * Re-saving an unchanged form for a listed document keeps the collection's
   * ids and every other document, and the document keeps its upload date.
   */
  lemma {:induction false} ResaveKeepsDocument(documents: seq<Document>, e: Document, stamp: string, now: string, i: nat)
    requires i < |documents| && documents[i] == e
    requires e.id != "" && e.uploadDate != ""
    ensures var form := DocumentForm(e.title, e.kind, e.url, Some(if e.isLocal then LocalSource else "external"),
                                     e.assignedTo, e.assignedVendors, e.permission, e.category);
            SaveEdited(documents, DocumentId, Some(e), DocumentRecord(form, Some(e), stamp, now))[i] == e
  {
  }
}

=== FILE: documents_tab.dfy ===
/**
 * The participant's documents tab (`DocumentsTab`): the viewer's documents,
 * how each one is opened or downloaded, and the per-type icon, colour and
 * label tables.
 */
module DocumentsTabView {
  import opened Wrappers
  import opened Records
  import opened TeamView

  datatype Icon = FileCheck | ImageIcon | FileText | Receipt | FileIcon

  /** The download control of a card: the link's target and the name the file is saved under. */
  datatype DownloadLink = DownloadLink(href: string, fileName: string)

  /** The documents listed are the viewer's documents, in the same order. */
  function ListedDocuments(team: TeamData): (r: seq<Document>)
    reads team
    ensures r == UserDocuments(team.documents, team.selectedUser, team.userType)
    ensures team.selectedUser == "" ==> r == []
  {
    team.GetUserDocuments()
  }

  /** `handleOpenDocument`: what `window.open` is called with. */
  function OpenDocument(d: Document): (r: string)
    ensures d.isLocal ==> r == UploadsPrefix + d.url
    ensures !d.isLocal ==> r == d.url
  {
    d.OpenTarget()
  }

  /** A download control only for a local file, pointing where opening it leads and saving it under its title. */
  function Download(d: Document): (r: Option<DownloadLink>)
    ensures r.Some? <==> d.isLocal
    ensures r.Some? ==> r.value.href == d.OpenTarget() && r.value.fileName == d.title
  {
    if d.isLocal then Some(DownloadLink(UploadsPrefix + d.url, d.title)) else None
  }

  function TypeIcon(kind: string): Option<Icon>
  {
    if kind == "contract" then Some(FileCheck)
    else if kind == "photo" then Some(ImageIcon)
    else if kind == "planning" then Some(FileText)
    else if kind == "invoice" then Some(Receipt)
    else if kind == "other" then Some(FileIcon)
    else None
  }

  function TypeColor(kind: string): Option<string>
  {
    if kind == "contract" then Some("bg-green-100 text-green-800")
    else if kind == "photo" then Some("bg-pink-100 text-pink-800")
    else if kind == "planning" then Some("bg-blue-100 text-blue-800")
    else if kind == "invoice" then Some("bg-yellow-100 text-yellow-800")
    else if kind == "other" then Some("bg-gray-100 text-gray-800")
    else None
  }

  function TypeLabel(kind: string): Option<string>
  {
    if kind == "contract" then Some("Contrat")
    else if kind == "photo" then Some("Photo")
    else if kind == "planning" then Some("Planning")
    else if kind == "invoice" then Some("Facture")
    else if kind == "other" then Some("Autre")
    else None
  }

  /**
   * The three tables are defined exactly on the five document types: every
   * type has an icon, a colour and a label, and any other value has none.
   */
  lemma TypeTablesTotal(kind: string)
    ensures kind in DocumentTypes <==> TypeIcon(kind).Some?
    ensures kind in DocumentTypes <==> TypeColor(kind).Some?
    ensures kind in DocumentTypes <==> TypeLabel(kind).Some?
  {
  }

  /** Different types get different labels and icons. */
  lemma TypeTablesDistinct(a: string, b: string)
    requires a in DocumentTypes && b in DocumentTypes && a != b
    ensures TypeLabel(a) != TypeLabel(b) && TypeIcon(a) != TypeIcon(b)
  {
  }
}

=== FILE: edits.dfy ===
/**
 * The edits every organizer form applies to a collection before saving it:
 * replace the edited record by id, append a new one, delete by id, and the
 * `editing?.field || fresh` rule that decides which fields an edit carries over.
 */
module Edits {
  import opened Wrappers
  import opened Seqs

  /**
   * `editing?.field || minted`: the edited record's field when there is an
   * edited record and that field is a non-empty string, the minted value otherwise.
   */
  function KeptOr<T>(editing: Option<T>, fieldOf: T -> string, minted: string): (r: string)
    ensures editing.Some? && fieldOf(editing.value) != "" ==> r == fieldOf(editing.value)
    ensures editing.None? || fieldOf(editing.value) == "" ==> r == minted
  {
    if editing.Some? && fieldOf(editing.value) != "" then fieldOf(editing.value) else minted
  }

  /**
   * The collection a form saves: with an edited record, every element whose
   * id equals the edited record's id becomes `x`; without one, `x` is appended.
   */
  function SaveEdited<T>(s: seq<T>, idOf: T -> string, editing: Option<T>, x: T): (r: seq<T>)
    ensures editing.None? ==> r == s + [x]
    ensures editing.Some? ==> |r| == |s|
    ensures editing.Some? ==> forall i :: 0 <= i < |s| && idOf(s[i]) != idOf(editing.value) ==> r[i] == s[i]
    ensures editing.Some? ==> forall i :: 0 <= i < |s| && idOf(s[i]) == idOf(editing.value) ==> r[i] == x
  {
    match editing
    case Some(e) => ReplaceWhere(s, (y: T) => idOf(y) == idOf(e), x)
    case None => s + [x]
  }

  /**
   * When no record of the collection carries the edited record's id (it was
   * deleted in the meantime), the save changes nothing: the edit is silently lost.
   */
  lemma {:induction false} EditOfMissingIsLost<T>(s: seq<T>, idOf: T -> string, e: T, x: T)
    requires forall i :: 0 <= i < |s| ==> idOf(s[i]) != idOf(e)
    ensures SaveEdited(s, idOf, Some(e), x) == s
  {
    ReplaceWhereNoHit(s, (y: T) => idOf(y) == idOf(e), x);
  }

  /** An edit that keeps the id leaves the sequence of ids exactly as it was. */
  lemma EditKeepsIds<T>(s: seq<T>, idOf: T -> string, e: T, x: T)
    requires idOf(x) == idOf(e)
    ensures Ids(SaveEdited(s, idOf, Some(e), x), idOf) == Ids(s, idOf)
  {
  }

  /** Saving the same edit twice is saving it once. */
  lemma EditIdempotent<T>(s: seq<T>, idOf: T -> string, e: T, x: T)
    requires idOf(x) == idOf(e)
    ensures SaveEdited(SaveEdited(s, idOf, Some(e), x), idOf, Some(e), x) == SaveEdited(s, idOf, Some(e), x)
  {
  }

  /** `s.map(idOf)`. */
  function Ids<T>(s: seq<T>, idOf: T -> string): (r: seq<string>)
    ensures |r| == |s|
    ensures forall i :: 0 <= i < |s| ==> r[i] == idOf(s[i])
  {
    if s == [] then [] else [idOf(s[0])] + Ids(s[1..], idOf)
  }

  /** `s.filter(y => y.id !== id)`. */
  function RemoveId<T>(s: seq<T>, idOf: T -> string, id: string): (r: seq<T>)
    ensures |r| <= |s|
    ensures forall x :: x in r ==> x in s && idOf(x) != id
  {
    Filter(s, (y: T) => idOf(y) != id)
  }

  /** Deleting removes exactly the records carrying that id. */
  lemma {:induction false} RemoveIdExactly<T>(s: seq<T>, idOf: T -> string, id: string, x: T)
    ensures x in RemoveId(s, idOf, id) <==> x in s && idOf(x) != id
  {
    FilterMembership(s, (y: T) => idOf(y) != id, x);
  }

  /** Deleting an id no record carries changes nothing. */
  lemma {:induction false} RemoveAbsentId<T>(s: seq<T>, idOf: T -> string, id: string)
    requires forall i :: 0 <= i < |s| ==> idOf(s[i]) != id
    ensures RemoveId(s, idOf, id) == s
  {
    FilterKeepsAll(s, (y: T) => idOf(y) != id);
  }

  /** The records kept stay in their order: deletion distributes over concatenation. */
  lemma {:induction false} RemoveIdInOrder<T>(a: seq<T>, b: seq<T>, idOf: T -> string, id: string)
    ensures RemoveId(a + b, idOf, id) == RemoveId(a, idOf, id) + RemoveId(b, idOf, id)
  {
    FilterAppend(a, b, (y: T) => idOf(y) != id);
  }

  /** Adding a record under an id no other record carries, then deleting that id, restores the collection. */
  lemma {:induction false} AddThenRemove<T>(s: seq<T>, idOf: T -> string, x: T)
    requires forall i :: 0 <= i < |s| ==> idOf(s[i]) != idOf(x)
    ensures RemoveId(SaveEdited(s, idOf, None, x), idOf, idOf(x)) == s
  {
    var keep := (y: T) => idOf(y) != idOf(x);
    FilterAppend(s, [x], keep);
    FilterKeepsAll(s, keep);
    FilterDropsAll([x], keep);
  }

  /** After deleting an id, an edit of a record with that id is lost. */
  lemma RemoveThenEdit<T>(s: seq<T>, idOf: T -> string, e: T, x: T)
    ensures SaveEdited(RemoveId(s, idOf, idOf(e)), idOf, Some(e), x) == RemoveId(s, idOf, idOf(e))
  {
    var r := RemoveId(s, idOf, idOf(e));
    assert forall i :: 0 <= i < |r| ==> r[i] in r;
    EditOfMissingIsLost(r, idOf, e, x);
  }
}

=== FILE: people_admin.dfy ===
/**
 * The organizer's team page (`PeopleManagement`): person and vendor forms
 * that edit, add or delete one record and write the whole collection back
 * through the organizer repository.
 */
module PeopleAdmin {
  import opened Wrappers
  import opened Records
  import opened Storage
  import opened Seqs
  import opened Edits
  import Admin

  /** The value a checked switch submits. */
  const SwitchOn: string := "on"

  /** The submitted person form; `confirmed` is absent when the switch is off. */
  datatype PersonForm = PersonForm(
    name: string,
    email: string,
    phone: string,
    role: string,
    notes: string,
    confirmed: Option<string>)

  /** The submitted vendor form. */
  datatype VendorForm = VendorForm(
    name: string,
    kind: string,
    contact: string,
    email: string,
    phone: string,
    notes: string,
    confirmed: Option<string>)

  /**
   * The record `handleSavePerson` builds: the edited record's id when it has
   * a non-empty one, "person-" and the clock stamp otherwise; every other field from the form.
   */
  function PersonRecord(form: PersonForm, editing: Option<Person>, stamp: string): (r: Person)
    ensures r.id == KeptOr(editing, PersonId, "person-" + stamp)
    ensures r.confirmed <==> form.confirmed == Some(SwitchOn)
    ensures r.name == form.name && r.email == form.email && r.phone == form.phone
    ensures r.role == form.role && r.notes == form.notes
  {
    Person(
      id := KeptOr(editing, PersonId, "person-" + stamp),
      name := form.name,
      email := form.email,
      phone := form.phone,
      role := form.role,
      notes := form.notes,
      confirmed := form.confirmed == Some(SwitchOn))
  }

  /** The record `handleSaveVendor` builds, with a "vendor-" id when not editing. */
  function VendorRecord(form: VendorForm, editing: Option<Vendor>, stamp: string): (r: Vendor)
    ensures r.id == KeptOr(editing, VendorId, "vendor-" + stamp)
    ensures r.confirmed <==> form.confirmed == Some(SwitchOn)
    ensures r.name == form.name && r.kind == form.kind && r.contact == form.contact
    ensures r.email == form.email && r.phone == form.phone && r.notes == form.notes
  {
    Vendor(
      id := KeptOr(editing, VendorId, "vendor-" + stamp),
      name := form.name,
      kind := form.kind,
      contact := form.contact,
      email := form.email,
      phone := form.phone,
      notes := form.notes,
      confirmed := form.confirmed == Some(SwitchOn))
  }

  /** An edit of a record with a non-empty id keeps that id; a new record's id starts with "person-". */
  lemma PersonRecordId(form: PersonForm, editing: Option<Person>, stamp: string)
    ensures editing.Some? && editing.value.id != "" ==> PersonRecord(form, editing, stamp).id == editing.value.id
    ensures editing.None? ==> PersonRecord(form, editing, stamp).id[..7] == "person-"
  {
  }

  /**
   * Saving an edit of a listed person replaces every record with that id and
   * nothing else, and keeps the collection's length.
   */
  lemma {:induction false} EditPersonInPlace(people: seq<Person>, form: PersonForm, e: Person, stamp: string, i: nat)
    requires i < |people|
    requires e.id != ""
    ensures var r := SaveEdited(people, PersonId, Some(e), PersonRecord(form, Some(e), stamp));
      && |r| == |people|
      && (people[i].id == e.id ==> r[i] == PersonRecord(form, Some(e), stamp) && r[i].id == e.id)
      && (people[i].id != e.id ==> r[i] == people[i])
  {
  }

  class PeopleManagement {
    const admin: Admin.AdminData
    var editingPerson: Option<Person>
    var editingVendor: Option<Vendor>
    var personDialogOpen: bool
    var vendorDialogOpen: bool

    constructor (admin: Admin.AdminData)
      ensures this.admin == admin
      ensures editingPerson == None && editingVendor == None
      ensures !personDialogOpen && !vendorDialogOpen
    {
      this.admin := admin;
      editingPerson, editingVendor := None, None;
      personDialogOpen, vendorDialogOpen := false, false;
    }

    /** The "add" button: no record is being edited. */
    method AddPerson()
      modifies this
      ensures editingPerson == None && personDialogOpen
      ensures editingVendor == old(editingVendor) && vendorDialogOpen == old(vendorDialogOpen)
    {
      editingPerson := None;
      personDialogOpen := true;
    }

    /** A card's edit button: that record is being edited, in an open dialog. */
    method EditPerson(p: Person)
      modifies this
      ensures editingPerson == Some(p) && personDialogOpen
      ensures editingVendor == old(editingVendor) && vendorDialogOpen == old(vendorDialogOpen)
    {
      editingPerson := Some(p);
      personDialogOpen := true;
    }

    method AddVendor()
      modifies this
      ensures editingVendor == None && vendorDialogOpen
      ensures editingPerson == old(editingPerson) && personDialogOpen == old(personDialogOpen)
    {
      editingVendor := None;
      vendorDialogOpen := true;
    }

    method EditVendor(v: Vendor)
      modifies this
      ensures editingVendor == Some(v) && vendorDialogOpen
      ensures editingPerson == old(editingPerson) && personDialogOpen == old(personDialogOpen)
    {
      editingVendor := Some(v);
      vendorDialogOpen := true;
    }

    /**
     * `handleSavePerson`: builds the record, replaces or appends it, saves
     * only the people collection, then closes the dialog.
     */
    method HandleSavePerson(form: PersonForm, stamp: string)
      modifies this, admin, admin.store
      ensures admin.people == SaveEdited(old(admin.people), PersonId, old(editingPerson), PersonRecord(form, old(editingPerson), stamp))
      ensures admin.store.items == old(admin.store.items)[PeopleKey := PeopleJson(admin.people)]
      ensures admin.vendors == old(admin.vendors) && admin.tasks == old(admin.tasks) && admin.documents == old(admin.documents)
      ensures admin.eventConfig == old(admin.eventConfig) && admin.errorsLogged == old(admin.errorsLogged)
      ensures editingPerson == None && !personDialogOpen
      ensures editingVendor == old(editingVendor) && vendorDialogOpen == old(vendorDialogOpen)
    {
      var record := PersonRecord(form, editingPerson, stamp);
      admin.SavePeople(SaveEdited(admin.people, PersonId, editingPerson, record));
      editingPerson := None;
      personDialogOpen := false;
    }

    /** `handleSaveVendor`: the same for vendors, saving only the vendor collection. */
    method HandleSaveVendor(form: VendorForm, stamp: string)
      modifies this, admin, admin.store
      ensures admin.vendors == SaveEdited(old(admin.vendors), VendorId, old(editingVendor), VendorRecord(form, old(editingVendor), stamp))
      ensures admin.store.items == old(admin.store.items)[VendorsKey := VendorsJson(admin.vendors)]
      ensures admin.people == old(admin.people) && admin.tasks == old(admin.tasks) && admin.documents == old(admin.documents)
      ensures admin.eventConfig == old(admin.eventConfig) && admin.errorsLogged == old(admin.errorsLogged)
      ensures editingVendor == None && !vendorDialogOpen
      ensures editingPerson == old(editingPerson) && personDialogOpen == old(personDialogOpen)
    {
      var record := VendorRecord(form, editingVendor, stamp);
      admin.SaveVendors(SaveEdited(admin.vendors, VendorId, editingVendor, record));
      editingVendor := None;
      vendorDialogOpen := false;
    }

    /** `deletePerson`: every person with that id goes, the others stay in order. */
    method DeletePerson(id: string)
      modifies admin, admin.store
      ensures admin.people == RemoveId(old(admin.people), PersonId, id)
      ensures admin.store.items == old(admin.store.items)[PeopleKey := PeopleJson(admin.people)]
      ensures admin.vendors == old(admin.vendors) && admin.tasks == old(admin.tasks) && admin.documents == old(admin.documents)
      ensures admin.eventConfig == old(admin.eventConfig) && admin.errorsLogged == old(admin.errorsLogged)
    {
      admin.SavePeople(RemoveId(admin.people, PersonId, id));
    }

    /** `deleteVendor`. */
    method DeleteVendor(id: string)
      modifies admin, admin.store
      ensures admin.vendors == RemoveId(old(admin.vendors), VendorId, id)
      ensures admin.store.items == old(admin.store.items)[VendorsKey := VendorsJson(admin.vendors)]
      ensures admin.people == old(admin.people) && admin.tasks == old(admin.tasks) && admin.documents == old(admin.documents)
      ensures admin.eventConfig == old(admin.eventConfig) && admin.errorsLogged == old(admin.errorsLogged)
    {
      admin.SaveVendors(RemoveId(admin.vendors, VendorId, id));
    }
  }

  /**
   * Adding a person under a stamp no listed id uses, then deleting that
   * person, leaves the people collection as it was.
   */
  method AddThenDeletePerson(page: PeopleManagement, form: PersonForm, stamp: string)
    requires page.editingPerson == None
    requires forall i :: 0 <= i < |page.admin.people| ==> page.admin.people[i].id != "person-" + stamp
    modifies page, page.admin, page.admin.store
    ensures page.admin.people == old(page.admin.people)
  {
    ghost var before := page.admin.people;
    page.HandleSavePerson(form, stamp);
    page.DeletePerson("person-" + stamp);
    AddThenRemove(before, PersonId, PersonRecord(form, None, stamp));
  }
}

=== FILE: phone.dfy ===
/**
 * Phone numbers in free text (`PhoneNumberLink`): the French number pattern
 * `(\+33|0)[1-9](?:[. -]?\d{2}){4}` as a recogniser of one matched number,
 * and `formatPhoneForTel`, which strips the separators for the `tel:` link.
 */
module Phone {
  import opened Seqs

  const TelScheme: string := "tel:"

  /** The separators the pattern allows between digit pairs, and the ones the link strips. */
  predicate IsSeparator(c: char)
  {
    c == '.' || c == ' ' || c == '-'
  }

  predicate NotSeparator(c: char)
  {
    !IsSeparator(c)
  }

  predicate IsDigit(c: char)
  {
    '0' <= c <= '9'
  }

  /** `phone.replace(/[. -]/g, '')`: the input without its dots, spaces and hyphens. */
  function FormatPhoneForTel(phone: string): (r: string)
    ensures |r| <= |phone|
    ensures forall c :: c in r ==> c in phone && !IsSeparator(c)
  {
    Filter(phone, NotSeparator)
  }

  /** Every character that is not a separator is kept, and only those. */
  lemma {:induction false} FormatKeepsOthers(phone: string, c: char)
    ensures c in FormatPhoneForTel(phone) <==> c in phone && !IsSeparator(c)
  {
    FilterMembership(phone, NotSeparator, c);
  }

  /** Formatting twice is formatting once. */
  lemma {:induction false} FormatIdempotent(phone: string)
    ensures FormatPhoneForTel(FormatPhoneForTel(phone)) == FormatPhoneForTel(phone)
  {
    FilterIdempotent(phone, NotSeparator);
  }

  /** The length is kept exactly when the input holds no separator. */
  lemma {:induction false} FormatLength(phone: string)
    ensures |FormatPhoneForTel(phone)| == |phone| <==> forall i :: 0 <= i < |phone| ==> !IsSeparator(phone[i])
  {
    FilterSameLength(phone, NotSeparator);
  }

  /** Formatting works piece by piece: it distributes over concatenation. */
  lemma {:induction false} FormatAppend(a: string, b: string)
    ensures FormatPhoneForTel(a + b) == FormatPhoneForTel(a) + FormatPhoneForTel(b)
  {
    FilterAppend(a, b, NotSeparator);
  }

  /** `(?:[. -]?\d{2}){n}`: `n` digit pairs, each optionally preceded by one separator. */
  predicate Pairs(s: string, n: nat)
  {
    if n == 0 then s == []
    else
      || (|s| >= 2 && IsDigit(s[0]) && IsDigit(s[1]) && Pairs(s[2..], n - 1))
      || (|s| >= 3 && IsSeparator(s[0]) && IsDigit(s[1]) && IsDigit(s[2]) && Pairs(s[3..], n - 1))
  }

  /** A whole string the pattern matches: "+33" or "0", a digit 1-9, then four pairs. */
  predicate MatchesPhone(s: string)
  {
    || (|s| >= 4 && s[..3] == "+33" && '1' <= s[3] <= '9' && Pairs(s[4..], 4))
    || (|s| >= 2 && s[0] == '0' && '1' <= s[1] <= '9' && Pairs(s[2..], 4))
  }

  predicate AllDigits(s: string)
  {
    forall i :: 0 <= i < |s| ==> IsDigit(s[i])
  }

  /** Stripping `n` pairs leaves exactly `2n` digits. */
  lemma {:induction false} PairsNormalise(s: string, n: nat)
    requires Pairs(s, n)
    ensures |FormatPhoneForTel(s)| == 2 * n
    ensures AllDigits(FormatPhoneForTel(s))
  {
    if n > 0 {
      if |s| >= 2 && IsDigit(s[0]) && IsDigit(s[1]) && Pairs(s[2..], n - 1) {
        PairsNormalise(s[2..], n - 1);
        StripBare(s);
        AllDigitsAppend(s[..2], FormatPhoneForTel(s[2..]));
      } else {
        PairsNormalise(s[3..], n - 1);
        StripSeparated(s);
        AllDigitsAppend(s[1..3], FormatPhoneForTel(s[3..]));
      }
    }
  }

  lemma AllDigitsAppend(a: string, b: string)
    requires AllDigits(a) && AllDigits(b)
    ensures AllDigits(a + b)
  {
    assert forall i :: |a| <= i < |a + b| ==> (a + b)[i] == b[i - |a|];
  }

  /** A lone separator is dropped. */
  lemma FormatSeparator(c: char)
    requires IsSeparator(c)
    ensures FormatPhoneForTel([c]) == []
  {
    assert [c][1..] == [];
  }

  /** A leading pair of digits is kept. */
  lemma StripBare(s: string)
    requires |s| >= 2 && IsDigit(s[0]) && IsDigit(s[1])
    ensures FormatPhoneForTel(s) == s[..2] + FormatPhoneForTel(s[2..])
  {
    assert s == s[..2] + s[2..];
    FormatAppend(s[..2], s[2..]);
    FormatDigits(s[..2]);
  }

  /** A leading separator before a pair of digits is dropped and the pair kept. */
  lemma StripSeparated(s: string)
    requires |s| >= 3 && IsSeparator(s[0]) && IsDigit(s[1]) && IsDigit(s[2])
    ensures FormatPhoneForTel(s) == s[1..3] + FormatPhoneForTel(s[3..])
  {
    var t := s[1..];
    StripBare(t);
    assert t[..2] == s[1..3] && t[2..] == s[3..];
    assert s == [s[0]] + t;
    FormatAppend([s[0]], t);
    FormatSeparator(s[0]);
  }

  /** A run of digits is left as it is. */
  lemma FormatDigits(s: string)
    requires AllDigits(s)
    ensures FormatPhoneForTel(s) == s
  {
    FilterKeepsAll(s, NotSeparator);
  }

  /**
   * A matched number normalises to "+33" or "0" followed by exactly nine
   * digits, the first of them 1-9.
   */
  lemma MatchNormalises(s: string)
    requires MatchesPhone(s)
    ensures var r := FormatPhoneForTel(s);
      || (|r| == 12 && r[..3] == "+33" && '1' <= r[3] <= '9' && AllDigits(r[3..]))
      || (|r| == 10 && r[0] == '0' && '1' <= r[1] <= '9' && AllDigits(r[1..]))
  {
    if |s| >= 4 && s[..3] == "+33" && '1' <= s[3] <= '9' && Pairs(s[4..], 4) {
      InternationalNormalises(s);
    } else {
      NationalNormalises(s);
    }
  }

  lemma InternationalNormalises(s: string)
    requires |s| >= 4 && s[..3] == "+33" && '1' <= s[3] <= '9' && Pairs(s[4..], 4)
    ensures var r := FormatPhoneForTel(s);
      |r| == 12 && r[..3] == "+33" && '1' <= r[3] <= '9' && AllDigits(r[3..])
  {
    var head, tail := s[..4], s[4..];
    PairsNormalise(tail, 4);
    assert s == head + tail;
    FormatAppend(head, tail);
    PrefixKept(head);
    var ft := FormatPhoneForTel(tail);
    var r := FormatPhoneForTel(s);
    assert r == head + ft;
    assert r[..3] == s[..3];
    AllDigitsAppend([s[3]], ft);
    assert r[3..] == [s[3]] + ft;
  }

  /** "+33" and a digit are kept as they are. */
  lemma PrefixKept(h: string)
    requires |h| == 4 && h[..3] == "+33" && IsDigit(h[3])
    ensures FormatPhoneForTel(h) == h
  {
    assert h[0] == '+' && h[1] == '3' && h[2] == '3' by {
      assert h[..3][0] == h[0] && h[..3][1] == h[1] && h[..3][2] == h[2];
    }
    FilterKeepsAll(h, NotSeparator);
  }

  lemma NationalNormalises(s: string)
    requires |s| >= 2 && s[0] == '0' && '1' <= s[1] <= '9' && Pairs(s[2..], 4)
    ensures var r := FormatPhoneForTel(s);
      |r| == 10 && r[0] == '0' && '1' <= r[1] <= '9' && AllDigits(r[1..])
  {
    var head, tail := s[..2], s[2..];
    PairsNormalise(tail, 4);
    assert s == head + tail;
    FormatAppend(head, tail);
    FormatDigits(head);
    var r := FormatPhoneForTel(s);
    AllDigitsAppend(head[1..], FormatPhoneForTel(tail));
    assert r[1..] == head[1..] + FormatPhoneForTel(tail);
  }

  /** The link target of a matched number. */
  function TelLink(phone: string): (r: string)
    ensures |r| == |TelScheme| + |FormatPhoneForTel(phone)|
    ensures r[..|TelScheme|] == TelScheme
    ensures r[|TelScheme|..] == FormatPhoneForTel(phone)
  {
    TelScheme + FormatPhoneForTel(phone)
  }

  /** A number written with separators and the same number written without them lead to the same link. */
  lemma TelLinkIgnoresSeparators(phone: string)
    ensures TelLink(FormatPhoneForTel(phone)) == TelLink(phone)
  {
    FormatIdempotent(phone);
  }
}

=== FILE: planning_admin.dfy ===
/**
 * The organizer's planning page (`PlanningManagement`): the task form that
 * edits, adds or deletes one task, and the listing that sorts the task
 * collection in place by start time.
 */
module PlanningAdmin {
  import opened Wrappers
  import opened Records
  import opened Storage
  import opened Edits
  import opened Sorting
  import Admin

  /** The submitted task form; `status` and `priority` are absent when the select was left untouched. */
  datatype TaskForm = TaskForm(
    title: string,
    startTime: string,
    duration: int,
    category: string,
    assignedTo: seq<string>,
    assignedVendors: seq<string>,
    status: Option<string>,
    priority: Option<string>,
    notes: string)

  /** `value || fallback` on a form value that may be missing. */
  function OrDefault(v: Option<string>, fallback: string): (r: string)
    ensures v.Some? && v.value != "" ==> r == v.value
    ensures v.None? || v.value == "" ==> r == fallback
  {
    if v.Some? && v.value != "" then v.value else fallback
  }

  /**
   * The task `handleSaveTask` builds: the edited task's id when non-empty,
   * "task-" and the clock stamp otherwise; status "scheduled" and priority
   * "medium" when the form leaves them empty; the assignment lists as submitted.
   */
  function TaskRecord(form: TaskForm, editing: Option<Task>, stamp: string): (r: Task)
    ensures r.id == KeptOr(editing, TaskId, "task-" + stamp)
    ensures form.status.None? || form.status == Some("") ==> r.status == Scheduled
    ensures form.priority.None? || form.priority == Some("") ==> r.priority == Medium
    ensures form.status.Some? && form.status.value != "" ==> r.status == form.status.value
    ensures form.priority.Some? && form.priority.value != "" ==> r.priority == form.priority.value
    ensures r.assignedTo == form.assignedTo && r.assignedVendors == form.assignedVendors
    ensures r.title == form.title && r.startTime == form.startTime && r.duration == form.duration
    ensures r.category == form.category && r.notes == form.notes
  {
    Task(
      id := KeptOr(editing, TaskId, "task-" + stamp),
      title := form.title,
      startTime := form.startTime,
      duration := form.duration,
      category := form.category,
      assignedTo := form.assignedTo,
      assignedVendors := form.assignedVendors,
      status := OrDefault(form.status, Scheduled),
      notes := form.notes,
      priority := OrDefault(form.priority, Medium))
  }

  class PlanningManagement {
    const admin: Admin.AdminData
    var editingTask: Option<Task>
    var dialogOpen: bool

    constructor (admin: Admin.AdminData)
      ensures this.admin == admin
      ensures editingTask == None && !dialogOpen
    {
      this.admin := admin;
      editingTask := None;
      dialogOpen := false;
    }

    method AddTask()
      modifies this
      ensures editingTask == None && dialogOpen
    {
      editingTask := None;
      dialogOpen := true;
    }

    method EditTask(t: Task)
      modifies this
      ensures editingTask == Some(t) && dialogOpen
    {
      editingTask := Some(t);
      dialogOpen := true;
    }

    /** `handleSaveTask`: replace or append, save only the tasks, close the dialog. */
    method HandleSaveTask(form: TaskForm, stamp: string)
      modifies this, admin, admin.store
      ensures admin.tasks == SaveEdited(old(admin.tasks), TaskId, old(editingTask), TaskRecord(form, old(editingTask), stamp))
      ensures admin.store.items == old(admin.store.items)[TasksKey := TasksJson(admin.tasks)]
      ensures admin.people == old(admin.people) && admin.vendors == old(admin.vendors) && admin.documents == old(admin.documents)
      ensures admin.eventConfig == old(admin.eventConfig) && admin.errorsLogged == old(admin.errorsLogged)
      ensures editingTask == None && !dialogOpen
    {
      var record := TaskRecord(form, editingTask, stamp);
      admin.SaveTasks(SaveEdited(admin.tasks, TaskId, editingTask, record));
      editingTask := None;
      dialogOpen := false;
    }

    /** `deleteTask`: every task with that id goes, the others stay in order. */
    method DeleteTask(id: string)
      modifies admin, admin.store
      ensures admin.tasks == RemoveId(old(admin.tasks), TaskId, id)
      ensures admin.store.items == old(admin.store.items)[TasksKey := TasksJson(admin.tasks)]
      ensures admin.people == old(admin.people) && admin.vendors == old(admin.vendors) && admin.documents == old(admin.documents)
      ensures admin.eventConfig == old(admin.eventConfig) && admin.errorsLogged == old(admin.errorsLogged)
    {
      admin.SaveTasks(RemoveId(admin.tasks, TaskId, id));
    }

    /**
     * The listing's `tasks.sort(...)`: the repository's own task array is
     * reordered by start time, as a permutation; storage is not written.
     */
    method SortListing()
      modifies admin
      ensures admin.tasks == SortByStart(old(admin.tasks))
      ensures SortedByStart(admin.tasks)
      ensures multiset(admin.tasks) == multiset(old(admin.tasks))
      ensures admin.people == old(admin.people) && admin.vendors == old(admin.vendors) && admin.documents == old(admin.documents)
      ensures admin.eventConfig == old(admin.eventConfig) && admin.errorsLogged == old(admin.errorsLogged)
      ensures admin.store.items == old(admin.store.items)
    {
      SortByStartSorted(admin.tasks);
      admin.tasks := SortByStart(admin.tasks);
    }
  }
}

=== FILE: planning_tab.dfy ===
/**
 * The participant's planning tab (`PlanningTab`): the viewer's own tasks and
 * the whole event's tasks, each sorted by start time, with the names of the
 * assignees on the global list.
 */
module PlanningTabView {
  import opened Records
  import opened Seqs
  import opened Sorting
  import opened Assignees
  import opened TeamView

  /**
   * The personal list: `getUserTasks()` sorted by start time. The sort works
   * on the fresh array the filter built, so no state changes.
   */
  function PersonalTasks(tasks: seq<Task>, user: string, userType: string): (r: seq<Task>)
    ensures SortedByStart(r)
    ensures multiset(r) == multiset(UserTasks(tasks, user, userType))
  {
    SortByStartSorted(UserTasks(tasks, user, userType));
    SortByStart(UserTasks(tasks, user, userType))
  }

  /** The personal list holds exactly the viewer's assigned tasks. */
  lemma PersonalTasksExactly(tasks: seq<Task>, user: string, userType: string, t: Task)
    ensures t in PersonalTasks(tasks, user, userType) <==> user != "" && t in tasks && AssignedTask(t, user, userType)
  {
    var mine := UserTasks(tasks, user, userType);
    assert t in PersonalTasks(tasks, user, userType) <==> t in multiset(mine);
    UserTasksExactly(tasks, user, userType, t);
  }

  /**
   * The global list: `tasks.sort(...)` reorders the session's own task array
   * in place, as a permutation; storage and the other collections are untouched.
   */
  method SortGlobal(team: TeamData)
    modifies team
    ensures team.tasks == SortByStart(old(team.tasks))
    ensures SortedByStart(team.tasks)
    ensures multiset(team.tasks) == multiset(old(team.tasks))
    ensures team.people == old(team.people) && team.vendors == old(team.vendors) && team.documents == old(team.documents)
    ensures team.selectedUser == old(team.selectedUser) && team.userType == old(team.userType)
    ensures team.eventConfig == old(team.eventConfig) && team.loading == old(team.loading) && team.errorsLogged == old(team.errorsLogged)
    ensures team.store.items == old(team.store.items)
  {
    SortByStartSorted(team.tasks);
    team.tasks := SortByStart(team.tasks);
  }

  /** Sorting the global list in place does not change which tasks the viewer is assigned. */
  lemma SortKeepsUserTasks(tasks: seq<Task>, user: string, userType: string, t: Task)
    ensures t in UserTasks(SortByStart(tasks), user, userType) <==> t in UserTasks(tasks, user, userType)
  {
    assert t in SortByStart(tasks) <==> t in multiset(tasks);
    UserTasksExactly(tasks, user, userType, t);
    UserTasksExactly(SortByStart(tasks), user, userType, t);
  }

  /** The line under a global task: the assignees' names joined by ", ", or "Non assigné" when none resolves. */
  function TaskAssigneeLabel(t: Task, people: seq<Person>, vendors: seq<Vendor>): (r: string)
    ensures AssignedNames(t, people, vendors) == [] ==> r == Unassigned
    ensures AssignedNames(t, people, vendors) != [] ==> r == Join(AssignedNames(t, people, vendors), NameSeparator)
  {
    AssigneeLabelUnassigned(AssignedNames(t, people, vendors));
    AssigneeLabel(AssignedNames(t, people, vendors))
  }
}

=== FILE: records.dfy ===
/**
 * The record types shared by the organizer and participant sides
 * (`PersonMember`, `Vendor`, `Task`, `Document`, `EventConfig`).
 *
 * The enumerated fields (role, vendor type, category, status, priority,
 * document type, permission) are kept as strings: every one of them reaches
 * the application through an unchecked cast of a form value or of parsed
 * storage, and the code compares them with string equality, so a value
 * outside the declared union is representable and takes the `else` branches.
 * The literals the code tests against are named below.
 */
module Records {
  import opened Wrappers

  const Completed: string := "completed"
  const Scheduled: string := "scheduled"
  const Medium: string := "medium"

  const PublicPermission: string := "public"
  const TeamPermission: string := "team"
  const SpecificPermission: string := "specific"

  /** The five document types of the `Document.type` union. */
  const DocumentTypes: set<string> := {"contract", "photo", "planning", "invoice", "other"}

  datatype Person = Person(
    id: string,
    name: string,
    email: string,
    phone: string,
    role: string,
    notes: string,
    confirmed: bool)

  datatype Vendor = Vendor(
    id: string,
    name: string,
    kind: string,      // the `type` field
    contact: string,
    email: string,
    phone: string,
    notes: string,
    confirmed: bool)

  datatype Task = Task(
    id: string,
    title: string,
    startTime: string, // "HH:MM"
    duration: int,     // minutes
    category: string,
    assignedTo: seq<string>,
    assignedVendors: seq<string>,
    status: string,
    notes: string,
    priority: string)

  datatype Document = Document(
    id: string,
    title: string,
    kind: string,      // the `type` field
    url: string,
    isLocal: bool,
    assignedTo: seq<string>,
    assignedVendors: seq<string>,
    permission: string,
    category: string,
    uploadDate: string)
  {
    /**
     * Where opening the document leads: a local file under "/uploads/",
     * an external link verbatim.
     */
    function OpenTarget(): (r: string)
      ensures isLocal ==> r == UploadsPrefix + url
      ensures !isLocal ==> r == url
    {
      if isLocal then UploadsPrefix + url else url
    }
  }

  const UploadsPrefix: string := "/uploads/"

  datatype EventConfig = EventConfig(
    id: string,
    name: string,
    kind: string,      // the `type` field
    date: string,
    location: string,
    description: string,
    primaryColor: string,
    secondaryColor: string,
    logo: Option<string>,
    timezone: string)

  /** The `id` accessors, as the lookups and edits by id use them. */
  function PersonId(p: Person): string { p.id }
  function VendorId(v: Vendor): string { v.id }
  function TaskId(t: Task): string { t.id }
  function DocumentId(d: Document): string { d.id }

  /** The configuration the organizer side starts with; `now` is the ISO timestamp of the clock at mount. */
  function DefaultEventConfig(now: string): EventConfig
  {
    EventConfig(
      id := "1",
      name := "Mon Événement",
      kind := "Mariage",
      date := now,
      location := "",
      description := "",
      primaryColor := "#9333ea",
      secondaryColor := "#e879f9",
      logo := None,
      timezone := "Europe/Paris")
  }
}

=== FILE: selection_context.dfy ===
/**
 * The team-selection context (`TeamSelectionProvider`): a second identity
 * mechanism, independent of the participant hook's, holding a team type
 * ('personal' or 'professional') and a person id, each mirrored into its own
 * storage key.
 */
module SelectionContext {
  import opened Wrappers
  import opened Storage

  const TeamTypeKey: string := "jour-j-team-type"
  const PersonIdKey: string := "jour-j-person-id"

  const Personal: string := "personal"
  const Professional: string := "professional"

  const MissingProvider: string := "useTeamSelection must be used within a TeamSelectionProvider"

  class TeamSelection {
    const store: LocalStore
    var selectedTeamType: Option<string>
    var selectedPersonId: Option<string>

    /** The provider's initial state, before its mount effect runs: nothing selected. */
    constructor (store: LocalStore)
      ensures this.store == store
      ensures selectedTeamType == None && selectedPersonId == None
    {
      this.store := store;
      selectedTeamType := None;
      selectedPersonId := None;
    }

    /**
     * The mount effect: each field is restored from its key when the key holds
     * a non-empty string, and keeps its value otherwise. The stored type is
     * cast without a check, so any string may come back.
     */
    method RestoreSaved()
      modifies this
      ensures selectedTeamType == (if TextAt(store.items, TeamTypeKey).Some? then TextAt(store.items, TeamTypeKey) else old(selectedTeamType))
      ensures selectedPersonId == (if TextAt(store.items, PersonIdKey).Some? then TextAt(store.items, PersonIdKey) else old(selectedPersonId))
    {
      var savedTeamType := TextAt(store.items, TeamTypeKey);
      var savedPersonId := TextAt(store.items, PersonIdKey);
      if savedTeamType.Some? { selectedTeamType := savedTeamType; }
      if savedPersonId.Some? { selectedPersonId := savedPersonId; }
    }

    /** `setTeamType`: sets the type and stores it; the person id is untouched. */
    method SetTeamType(kind: string)
      requires kind == Personal || kind == Professional
      modifies this, store
      ensures selectedTeamType == Some(kind) && selectedPersonId == old(selectedPersonId)
      ensures store.items == old(store.items)[TeamTypeKey := Text(kind)]
    {
      selectedTeamType := Some(kind);
      store.SetItem(TeamTypeKey, Text(kind));
    }

    /** `setPersonId`: sets the id and stores it; the type is untouched. */
    method SetPersonId(id: string)
      modifies this, store
      ensures selectedPersonId == Some(id) && selectedTeamType == old(selectedTeamType)
      ensures store.items == old(store.items)[PersonIdKey := Text(id)]
    {
      selectedPersonId := Some(id);
      store.SetItem(PersonIdKey, Text(id));
    }

    /** `clearSelection`: both fields back to nothing, both keys removed. */
    method ClearSelection()
      modifies this, store
      ensures selectedTeamType == None && selectedPersonId == None
      ensures store.items == old(store.items) - {TeamTypeKey, PersonIdKey}
    {
      selectedTeamType := None;
      selectedPersonId := None;
      store.RemoveItem(TeamTypeKey);
      store.RemoveItem(PersonIdKey);
    }
  }

  /**
   * `useTeamSelection`: the provided context, or the error it throws when no
   * provider encloses the caller.
   */
  function UseTeamSelection(provided: Option<TeamSelection>): (r: Result<TeamSelection, string>)
    ensures r.Ok? <==> provided.Some?
    ensures r.Ok? ==> r.value == provided.value
    ensures r.Err? ==> r.error == MissingProvider
  {
    match provided
    case Some(ctx) => Ok(ctx)
    case None => Err(MissingProvider)
  }

  /** Clearing twice leaves state and storage exactly as clearing once. */
  method ClearTwice(ctx: TeamSelection)
    modifies ctx, ctx.store
    ensures ctx.selectedTeamType == None && ctx.selectedPersonId == None
    ensures ctx.store.items == old(ctx.store.items) - {TeamTypeKey, PersonIdKey}
  {
    ctx.ClearSelection();
    ctx.ClearSelection();
  }

  /** A selection survives a remount: a fresh provider over the same store restores what was set. */
  method SelectThenRemount(ctx: TeamSelection, kind: string, id: string) returns (remounted: TeamSelection)
    requires kind == Personal || kind == Professional
    requires id != ""
    modifies ctx, ctx.store
    ensures remounted.store == ctx.store
    ensures remounted.selectedTeamType == Some(kind) && remounted.selectedPersonId == Some(id)
  {
    ctx.SetTeamType(kind);
    ctx.SetPersonId(id);
    remounted := new TeamSelection(ctx.store);
    remounted.RestoreSaved();
  }

  /** After a clear, a remount restores nothing. */
  method ClearThenRemount(ctx: TeamSelection) returns (remounted: TeamSelection)
    modifies ctx, ctx.store
    ensures remounted.selectedTeamType == None && remounted.selectedPersonId == None
  {
    ctx.ClearSelection();
    remounted := new TeamSelection(ctx.store);
    remounted.RestoreSaved();
  }
}

=== FILE: seqs.dfy ===
/**
 * The array operations the application builds everything from:
 * `filter`, `find`, `map` with a replacement, and `join`.
 * Each is defined once here and its properties are proved once.
 */
module Seqs {
  import opened Wrappers

  /** `s.filter(keep)`: the elements that satisfy `keep`, in their original order. */
  function Filter<T>(s: seq<T>, keep: T -> bool): (r: seq<T>)
    ensures |r| <= |s|
    ensures forall x :: x in r ==> x in s && keep(x)
  {
    if s == [] then [] else (if keep(s[0]) then [s[0]] else []) + Filter(s[1..], keep)
  }

  /** Filtering keeps exactly the elements that satisfy the predicate. */
  lemma {:induction false} FilterMembership<T>(s: seq<T>, keep: T -> bool, x: T)
    ensures x in Filter(s, keep) <==> x in s && keep(x)
  {
    if s != [] {
      FilterMembership(s[1..], keep, x);
      assert s == [s[0]] + s[1..];
    }
  }

  /** Filtering distributes over concatenation: order is preserved and no element moves across another. */
  lemma {:induction false} FilterAppend<T>(a: seq<T>, b: seq<T>, keep: T -> bool)
    ensures Filter(a + b, keep) == Filter(a, keep) + Filter(b, keep)
  {
    if a == [] {
      assert a + b == b;
    } else {
      assert (a + b)[1..] == a[1..] + b;
      FilterAppend(a[1..], b, keep);
    }
  }

  /** When every element passes, filtering changes nothing. */
  lemma {:induction false} FilterKeepsAll<T>(s: seq<T>, keep: T -> bool)
    requires forall i :: 0 <= i < |s| ==> keep(s[i])
    ensures Filter(s, keep) == s
  {
    if s != [] {
      FilterKeepsAll(s[1..], keep);
    }
  }

  /** When no element passes, filtering yields the empty sequence. */
  lemma {:induction false} FilterDropsAll<T>(s: seq<T>, keep: T -> bool)
    requires forall i :: 0 <= i < |s| ==> !keep(s[i])
    ensures Filter(s, keep) == []
  {
    if s != [] {
      FilterDropsAll(s[1..], keep);
    }
  }

  /** The length is kept exactly when nothing is dropped. */
  lemma {:induction false} FilterSameLength<T>(s: seq<T>, keep: T -> bool)
    ensures |Filter(s, keep)| == |s| <==> forall i :: 0 <= i < |s| ==> keep(s[i])
  {
    if s != [] {
      FilterSameLength(s[1..], keep);
      if !keep(s[0]) {
        assert |Filter(s, keep)| == |Filter(s[1..], keep)| <= |s[1..]| < |s|;
      } else {
        assert forall i :: 1 <= i < |s| ==> s[i] == s[1..][i - 1];
      }
    }
  }

  /** Filtering twice by the same predicate is filtering once. */
  lemma FilterIdempotent<T>(s: seq<T>, keep: T -> bool)
    ensures Filter(Filter(s, keep), keep) == Filter(s, keep)
  {
    var r := Filter(s, keep);
    assert forall i :: 0 <= i < |r| ==> r[i] in r;
    FilterKeepsAll(r, keep);
  }

  /** The positions of `s` whose element satisfies `p`. */
  function IndicesWhere<T>(s: seq<T>, p: T -> bool): set<int>
  {
    set i | 0 <= i < |s| && p(s[i])
  }

  /** Filtering keeps one element per position that passes: the length is the number of such positions. */
  lemma {:induction false} FilterCount<T>(s: seq<T>, keep: T -> bool)
    ensures |Filter(s, keep)| == |IndicesWhere(s, keep)|
  {
    if s != [] {
      var n := |s| - 1;
      FilterCount(s[..n], keep);
      FilterLast(s, keep);
      IndicesLast(s, keep);
    }
  }

  /** Filtering a non-empty sequence is filtering all but its last element, then the last one. */
  lemma FilterLast<T>(s: seq<T>, keep: T -> bool)
    requires s != []
    ensures Filter(s, keep) == Filter(s[..|s| - 1], keep) + (if keep(s[|s| - 1]) then [s[|s| - 1]] else [])
  {
    var n := |s| - 1;
    assert s == s[..n] + [s[n]];
    FilterAppend(s[..n], [s[n]], keep);
    assert [s[n]][1..] == [];
  }

  /** The passing positions of a non-empty sequence are those before its last position, and possibly the last. */
  lemma IndicesLast<T>(s: seq<T>, keep: T -> bool)
    requires s != []
    ensures |IndicesWhere(s, keep)| == |IndicesWhere(s[..|s| - 1], keep)| + (if keep(s[|s| - 1]) then 1 else 0)
  {
    var n := |s| - 1;
    var before := IndicesWhere(s[..n], keep);
    assert forall i :: 0 <= i < n ==> s[..n][i] == s[i];
    assert IndicesWhere(s, keep) == before + (if keep(s[n]) then {n} else {});
    assert n !in before;
  }

  /** `s.find(p)`: the first element satisfying `p`, or `undefined`. */
  function Find<T>(s: seq<T>, p: T -> bool): (r: Option<T>)
    ensures r.Some? ==> r.value in s && p(r.value)
    ensures r.None? <==> forall i :: 0 <= i < |s| ==> !p(s[i])
  {
    if s == [] then None
    else if p(s[0]) then Some(s[0])
    else
      var r := Find(s[1..], p);
      assert forall i :: 1 <= i < |s| ==> s[i] == s[1..][i - 1];
      r
  }

  /** The element found is the first one satisfying the predicate. */
  lemma {:induction false} FindFirst<T>(s: seq<T>, p: T -> bool, i: nat)
    requires i < |s| && p(s[i])
    requires forall j :: 0 <= j < i ==> !p(s[j])
    ensures Find(s, p) == Some(s[i])
  {
    if i > 0 {
      FindFirst(s[1..], p, i - 1);
    }
  }

  /** The same search over a sequence from which some non-matching elements were filtered out. */
  lemma {:induction false} FindIgnoresDropped<T>(s: seq<T>, keep: T -> bool, p: T -> bool)
    requires forall i :: 0 <= i < |s| && p(s[i]) ==> keep(s[i])
    ensures Find(Filter(s, keep), p) == Find(s, p)
  {
    if s != [] {
      var rest := Filter(s[1..], keep);
      FindIgnoresDropped(s[1..], keep, p);
      if keep(s[0]) {
        assert Filter(s, keep) == [s[0]] + rest;
        assert ([s[0]] + rest)[1..] == rest;
      } else {
        assert Filter(s, keep) == rest;
      }
    }
  }

  /** `s.map(e => hit(e) ? x : e)`: every element satisfying `hit` becomes `x`, all others stay in place. */
  function ReplaceWhere<T>(s: seq<T>, hit: T -> bool, x: T): (r: seq<T>)
    ensures |r| == |s|
    ensures forall i :: 0 <= i < |s| ==> r[i] == if hit(s[i]) then x else s[i]
  {
    if s == [] then []
    else
      var rest := ReplaceWhere(s[1..], hit, x);
      [if hit(s[0]) then x else s[0]] + rest
  }

  /** Replacing with the same record twice is replacing it once. */
  lemma ReplaceWhereIdempotent<T>(s: seq<T>, hit: T -> bool, x: T)
    ensures ReplaceWhere(ReplaceWhere(s, hit, x), hit, x) == ReplaceWhere(s, hit, x)
  {
  }

  /** When nothing is hit, the replacement changes nothing. */
  lemma ReplaceWhereNoHit<T>(s: seq<T>, hit: T -> bool, x: T)
    requires forall i :: 0 <= i < |s| ==> !hit(s[i])
    ensures ReplaceWhere(s, hit, x) == s
  {
  }

  /** `parts.join(sep)`. */
  function Join(parts: seq<string>, sep: string): (r: string)
    ensures parts == [] ==> r == []
    ensures |parts| == 1 ==> r == parts[0]
  {
    if parts == [] then []
    else if |parts| == 1 then parts[0]
    else parts[0] + sep + Join(parts[1..], sep)
  }

  /** Joining a sequence with at least one non-empty part yields a non-empty string. */
  lemma {:induction false} JoinNonEmpty(parts: seq<string>, sep: string)
    requires exists i :: 0 <= i < |parts| && parts[i] != []
    ensures Join(parts, sep) != []
  {
    if |parts| > 1 && parts[0] == [] {
      var i :| 0 <= i < |parts| && parts[i] != [];
      assert parts[1..][i - 1] == parts[i];
      JoinNonEmpty(parts[1..], sep);
    }
  }
}

=== FILE: sorting.dfy ===
/**
 * `tasks.sort((a, b) => a.startTime.localeCompare(b.startTime))`: a stable
 * sort of tasks by start time. The comparison is taken as lexicographic order
 * on characters, which is what `localeCompare` gives on "HH:MM" strings.
 */
module Sorting {
  import opened Records
  import opened Seqs

  /** `a` sorts no later than `b`: lexicographic order on characters. */
  predicate LexLe(a: string, b: string)
  {
    if a == [] then true
    else if b == [] then false
    else if a[0] < b[0] then true
    else if a[0] == b[0] then LexLe(a[1..], b[1..])
    else false
  }

  lemma {:induction false} LexLeRefl(a: string)
    ensures LexLe(a, a)
  {
    if a != [] {
      LexLeRefl(a[1..]);
    }
  }

  lemma {:induction false} LexLeTotal(a: string, b: string)
    ensures LexLe(a, b) || LexLe(b, a)
  {
    if a != [] && b != [] && a[0] == b[0] {
      LexLeTotal(a[1..], b[1..]);
    }
  }

  lemma {:induction false} LexLeTrans(a: string, b: string, c: string)
    requires LexLe(a, b) && LexLe(b, c)
    ensures LexLe(a, c)
  {
    if a != [] && b != [] && c != [] && a[0] == b[0] == c[0] {
      LexLeTrans(a[1..], b[1..], c[1..]);
    }
  }

  /** Two strings that sort no later than each other are equal. */
  lemma {:induction false} LexLeAntisym(a: string, b: string)
    requires LexLe(a, b) && LexLe(b, a)
    ensures a == b
  {
    if a != [] && b != [] {
      LexLeAntisym(a[1..], b[1..]);
      assert a == [a[0]] + a[1..] && b == [b[0]] + b[1..];
    }
  }

  /** Every task starts no earlier than the one before it. */
  predicate SortedByStart(s: seq<Task>)
  {
    forall i :: 0 < i < |s| ==> LexLe(s[i - 1].startTime, s[i].startTime)
  }

  /** Place `t` before the first task that does not start earlier than it. */
  function Insert(t: Task, s: seq<Task>): (r: seq<Task>)
    ensures |r| == |s| + 1
    ensures multiset(r) == multiset(s) + multiset{t}
  {
    if s == [] || LexLe(t.startTime, s[0].startTime) then [t] + s
    else
      var rest := Insert(t, s[1..]);
      assert s == [s[0]] + s[1..];
      [s[0]] + rest
  }

  /** The sorted copy: each task is inserted into the sorted rest. */
  function SortByStart(s: seq<Task>): (r: seq<Task>)
    ensures |r| == |s|
    ensures multiset(r) == multiset(s)
  {
    if s == [] then []
    else
      var rest := SortByStart(s[1..]);
      assert s == [s[0]] + s[1..];
      Insert(s[0], rest)
  }

  /** The inserted task goes first, or the first task stays first: the step `InsertSorted` needs at the head. */
  lemma InsertHead(t: Task, s: seq<Task>)
    ensures Insert(t, s)[0] == t || (s != [] && Insert(t, s)[0] == s[0])
  {
  }

  lemma {:induction false} InsertSorted(t: Task, s: seq<Task>)
    requires SortedByStart(s)
    ensures SortedByStart(Insert(t, s))
  {
    if s != [] && !LexLe(t.startTime, s[0].startTime) {
      LexLeTotal(t.startTime, s[0].startTime);
      InsertSorted(t, s[1..]);
      InsertHead(t, s[1..]);
    }
  }

  /** The sorted copy is in ascending order of start time. */
  lemma {:induction false} SortByStartSorted(s: seq<Task>)
    ensures SortedByStart(SortByStart(s))
  {
    if s != [] {
      SortByStartSorted(s[1..]);
      InsertSorted(s[0], SortByStart(s[1..]));
    }
  }

  /** Ascending between neighbours means ascending between any two positions. */
  lemma {:induction false} SortedPairwise(s: seq<Task>, i: nat, j: nat)
    requires SortedByStart(s)
    requires i <= j < |s|
    ensures LexLe(s[i].startTime, s[j].startTime)
    decreases j - i
  {
    if i == j {
      LexLeRefl(s[i].startTime);
    } else {
      SortedPairwise(s, i, j - 1);
      LexLeTrans(s[i].startTime, s[j - 1].startTime, s[j].startTime);
    }
  }

  /** Tasks sharing a start time. */
  function StartingAt(s: seq<Task>, time: string): seq<Task>
  {
    Filter(s, (t: Task) => t.startTime == time)
  }

  lemma StartingAtOne(t: Task, time: string)
    ensures StartingAt([t], time) == if t.startTime == time then [t] else []
  {
    assert [t][1..] == [];
  }

  /** Tasks sharing a start time, over a concatenation. */
  lemma StartingAtAppend(a: seq<Task>, b: seq<Task>, time: string)
    ensures StartingAt(a + b, time) == StartingAt(a, time) + StartingAt(b, time)
  {
    FilterAppend(a, b, (t: Task) => t.startTime == time);
  }

  lemma {:induction false} InsertStable(t: Task, s: seq<Task>, time: string)
    ensures StartingAt(Insert(t, s), time) == StartingAt([t], time) + StartingAt(s, time)
  {
    if s == [] || LexLe(t.startTime, s[0].startTime) {
      StartingAtAppend([t], s, time);
    } else {
      InsertStable(t, s[1..], time);
      InsertPastHead(t, s, time);
    }
  }

  /**
   * One step of `InsertStable`: when `t` goes past the head, the head and `t`
   * cannot share the start time (equal times do not pass each other).
   */
  lemma InsertPastHead(t: Task, s: seq<Task>, time: string)
    requires s != [] && !LexLe(t.startTime, s[0].startTime)
    requires StartingAt(Insert(t, s[1..]), time) == StartingAt([t], time) + StartingAt(s[1..], time)
    ensures StartingAt(Insert(t, s), time) == StartingAt([t], time) + StartingAt(s, time)
  {
    var mine, head, tail := StartingAt([t], time), StartingAt([s[0]], time), StartingAt(s[1..], time);
    InsertSkipsHead(t, s, time);
    SplitHead(s, time);
    NotBoth(t, s[0], time);
    SwapPastEmpty(mine, head, tail);
  }

  /** A task that sorts strictly after another cannot share its start time. */
  lemma NotBoth(t: Task, h: Task, time: string)
    requires !LexLe(t.startTime, h.startTime)
    ensures StartingAt([h], time) == [] || StartingAt([t], time) == []
  {
    StartingAtOne(t, time);
    StartingAtOne(h, time);
    LexLeRefl(t.startTime);
  }

  lemma SwapPastEmpty(mine: seq<Task>, head: seq<Task>, tail: seq<Task>)
    requires head == [] || mine == []
    ensures head + (mine + tail) == mine + (head + tail)
  {
  }

  /** Past the head, the insertion keeps the head first. */
  lemma InsertSkipsHead(t: Task, s: seq<Task>, time: string)
    requires s != [] && !LexLe(t.startTime, s[0].startTime)
    ensures StartingAt(Insert(t, s), time) == StartingAt([s[0]], time) + StartingAt(Insert(t, s[1..]), time)
  {
    assert Insert(t, s) == [s[0]] + Insert(t, s[1..]);
    StartingAtAppend([s[0]], Insert(t, s[1..]), time);
  }

  lemma SplitHead(s: seq<Task>, time: string)
    requires s != []
    ensures StartingAt(s, time) == StartingAt([s[0]], time) + StartingAt(s[1..], time)
  {
    assert s == [s[0]] + s[1..];
    StartingAtAppend([s[0]], s[1..], time);
  }

  /**
   * The sort is stable: the tasks that share a start time keep, in the sorted
   * copy, the relative order they had.
   */
  lemma {:induction false} SortByStartStable(s: seq<Task>, time: string)
    ensures StartingAt(SortByStart(s), time) == StartingAt(s, time)
  {
    if s != [] {
      var at := (u: Task) => u.startTime == time;
      SortByStartStable(s[1..], time);
      InsertStable(s[0], SortByStart(s[1..]), time);
      FilterAppend([s[0]], s[1..], at);
      assert s == [s[0]] + s[1..];
    }
  }

  /** Sorting a collection already in order changes nothing. */
  lemma {:induction false} SortByStartSortedInput(s: seq<Task>)
    requires SortedByStart(s)
    ensures SortByStart(s) == s
  {
    if s != [] {
      assert SortedByStart(s[1..]);
      SortByStartSortedInput(s[1..]);
      if |s| > 1 {
        assert LexLe(s[0].startTime, s[1].startTime);
      }
      assert s == [s[0]] + s[1..];
    }
  }

  /** Sorting twice is sorting once. */
  lemma SortByStartIdempotent(s: seq<Task>)
    ensures SortByStart(SortByStart(s)) == SortByStart(s)
  {
    SortByStartSorted(s);
    SortByStartSortedInput(SortByStart(s));
  }
}

=== FILE: storage.dfy ===
/**
 * The browser's `localStorage`, shared by every hook of one session, and the
 * load sequence that both data hooks run over it.
 *
 * Stored strings are abstracted: a collection or configuration written with
 * `JSON.stringify` is held as the value itself, a string written as is
 * (the identity keys) as `Text`, and content that `JSON.parse` rejects as
 * `Garbled`. JSON syntax is not modelled.
 */
module Storage {
  import opened Wrappers
  import opened Records

  const PeopleKey: string := "jour-j-people"
  const VendorsKey: string := "jour-j-vendors"
  const TasksKey: string := "jour-j-tasks"
  const DocumentsKey: string := "jour-j-documents"
  const EventConfigKey: string := "jour-j-event-config"

  /** The keys the load reads, in the order it parses them. */
  const LoadOrder: seq<string> := [PeopleKey, VendorsKey, TasksKey, DocumentsKey, EventConfigKey]

  datatype Value =
    | PeopleJson(people: seq<Person>)
    | VendorsJson(vendors: seq<Vendor>)
    | TasksJson(tasks: seq<Task>)
    | DocumentsJson(documents: seq<Document>)
    | ConfigJson(config: EventConfig)
    | Text(text: string)
    | Garbled

  /** `localStorage` itself: one map from key to stored value. */
  class LocalStore {
    var items: map<string, Value>

    constructor (items: map<string, Value>)
      ensures this.items == items
    {
      this.items := items;
    }

    /** `localStorage.setItem(key, v)`. */
    method SetItem(key: string, v: Value)
      modifies this
      ensures items == old(items)[key := v]
    {
      items := items[key := v];
    }

    /** `localStorage.removeItem(key)`. */
    method RemoveItem(key: string)
      modifies this
      ensures items == old(items) - {key}
    {
      items := items - {key};
    }
  }

  /** `if (saved)`: `getItem` returned a string and it is not the empty string. */
  predicate Present(items: map<string, Value>, key: string)
  {
    key in items && items[key] != Text("")
  }

  /** The raw string stored under an identity key, when `if (saved)` lets it through. */
  function TextAt(items: map<string, Value>, key: string): (r: Option<string>)
    ensures r.Some? ==> Present(items, key) && items[key] == Text(r.value)
  {
    if key in items && items[key].Text? && items[key].text != "" then Some(items[key].text) else None
  }

  /** Whether `JSON.parse` of a value yields the shape the key is read as. */
  predicate Fits(key: string, v: Value)
  {
    match v
    case PeopleJson(_) => key == PeopleKey
    case VendorsJson(_) => key == VendorsKey
    case TasksJson(_) => key == TasksKey
    case DocumentsJson(_) => key == DocumentsKey
    case ConfigJson(_) => key == EventConfigKey
    case _ => false
  }

  /** Reading this key does not throw: it is absent, or it holds a parsable value of the right shape. */
  predicate ReadableAt(items: map<string, Value>, key: string)
  {
    Present(items, key) ==> Fits(key, items[key])
  }

  /** No key of the load sequence makes it throw. */
  predicate Readable(items: map<string, Value>)
  {
    forall i :: 0 <= i < |LoadOrder| ==> ReadableAt(items, LoadOrder[i])
  }

  function PeopleIn(items: map<string, Value>): Option<seq<Person>>
  {
    if Present(items, PeopleKey) && items[PeopleKey].PeopleJson? then Some(items[PeopleKey].people) else None
  }

  function VendorsIn(items: map<string, Value>): Option<seq<Vendor>>
  {
    if Present(items, VendorsKey) && items[VendorsKey].VendorsJson? then Some(items[VendorsKey].vendors) else None
  }

  function TasksIn(items: map<string, Value>): Option<seq<Task>>
  {
    if Present(items, TasksKey) && items[TasksKey].TasksJson? then Some(items[TasksKey].tasks) else None
  }

  function DocumentsIn(items: map<string, Value>): Option<seq<Document>>
  {
    if Present(items, DocumentsKey) && items[DocumentsKey].DocumentsJson? then Some(items[DocumentsKey].documents) else None
  }

  function ConfigIn(items: map<string, Value>): Option<EventConfig>
  {
    if Present(items, EventConfigKey) && items[EventConfigKey].ConfigJson? then Some(items[EventConfigKey].config) else None
  }

  /**
   * What one run of the load assigns: `Some` for every setter that was called
   * before the block finished or threw, and whether the `catch` branch ran.
   */
  datatype Restoration = Restoration(
    people: Option<seq<Person>>,
    vendors: Option<seq<Vendor>>,
    tasks: Option<seq<Task>>,
    documents: Option<seq<Document>>,
    config: Option<EventConfig>,
    failed: bool)
  {
    /** The configuration held after the load: the restored one when its setter ran, `current` otherwise. */
    function KeptConfig(current: Option<EventConfig>): (r: Option<EventConfig>)
      ensures config.Some? ==> r == config
      ensures config.None? ==> r == current
    {
      if config.Some? then config else current
    }

    /** Whether the setter of the `i`-th key of the load sequence was called. */
    predicate Assigns(i: nat)
    {
      match i
      case 0 => people.Some?
      case 1 => vendors.Some?
      case 2 => tasks.Some?
      case 3 => documents.Some?
      case 4 => config.Some?
      case _ => false
    }
  }

  /**
   * The `try` block of the load: for each key in turn, skip it when absent,
   * otherwise parse it and call its setter; the first parse that throws ends
   * the block, and the setters already called keep their effect.
   */
  function Restore(items: map<string, Value>): (r: Restoration)
    ensures r.failed <==> !Readable(items)
    ensures r.people.Some? ==> Present(items, PeopleKey) && items[PeopleKey] == PeopleJson(r.people.value)
    ensures r.vendors.Some? ==> Present(items, VendorsKey) && items[VendorsKey] == VendorsJson(r.vendors.value)
    ensures r.tasks.Some? ==> Present(items, TasksKey) && items[TasksKey] == TasksJson(r.tasks.value)
    ensures r.documents.Some? ==> Present(items, DocumentsKey) && items[DocumentsKey] == DocumentsJson(r.documents.value)
    ensures r.config.Some? ==> Present(items, EventConfigKey) && items[EventConfigKey] == ConfigJson(r.config.value)
  {
    assert LoadOrder[0] == PeopleKey && LoadOrder[1] == VendorsKey && LoadOrder[2] == TasksKey;
    assert LoadOrder[3] == DocumentsKey && LoadOrder[4] == EventConfigKey;
    if !ReadableAt(items, PeopleKey) then
      Restoration(None, None, None, None, None, true)
    else if !ReadableAt(items, VendorsKey) then
      Restoration(PeopleIn(items), None, None, None, None, true)
    else if !ReadableAt(items, TasksKey) then
      Restoration(PeopleIn(items), VendorsIn(items), None, None, None, true)
    else if !ReadableAt(items, DocumentsKey) then
      Restoration(PeopleIn(items), VendorsIn(items), TasksIn(items), None, None, true)
    else if !ReadableAt(items, EventConfigKey) then
      Restoration(PeopleIn(items), VendorsIn(items), TasksIn(items), DocumentsIn(items), None, true)
    else
      assert forall i :: 0 <= i < |LoadOrder| ==> ReadableAt(items, LoadOrder[i]);
      Restoration(PeopleIn(items), VendorsIn(items), TasksIn(items), DocumentsIn(items), ConfigIn(items), false)
  }

  /**
   * The setter of the `i`-th key is called exactly when that key is present
   * and no key before it (nor itself) makes the parse throw: a failure keeps
   * the earlier assignments and skips all later ones.
   */
  lemma RestoreAssigns(items: map<string, Value>, i: nat)
    requires i < |LoadOrder|
    ensures Restore(items).Assigns(i) <==>
              Present(items, LoadOrder[i]) && forall j :: 0 <= j <= i ==> ReadableAt(items, LoadOrder[j])
  {
    var r := Restore(items);
    assert LoadOrder[0] == PeopleKey && LoadOrder[1] == VendorsKey && LoadOrder[2] == TasksKey;
    assert LoadOrder[3] == DocumentsKey && LoadOrder[4] == EventConfigKey;
  }

  /** On a readable store, the load assigns exactly the collections whose key is present, with the stored values. */
  lemma RestoreReadable(items: map<string, Value>)
    requires Readable(items)
    ensures Restore(items) == Restoration(PeopleIn(items), VendorsIn(items), TasksIn(items), DocumentsIn(items), ConfigIn(items), false)
  {
    assert ReadableAt(items, LoadOrder[0]) && ReadableAt(items, LoadOrder[1]) && ReadableAt(items, LoadOrder[2]);
    assert ReadableAt(items, LoadOrder[3]) && ReadableAt(items, LoadOrder[4]);
  }

  /** Writing a value of the right shape under one of the load keys never makes the store unreadable. */
  lemma WriteKeepsReadable(items: map<string, Value>, key: string, v: Value)
    requires Readable(items)
    requires Fits(key, v)
    ensures Readable(items[key := v])
  {
    var items' := items[key := v];
    forall i | 0 <= i < |LoadOrder|
      ensures ReadableAt(items', LoadOrder[i])
    {
      assert ReadableAt(items, LoadOrder[i]);
    }
  }

  /**
   * Round trip: on a readable store, the value a save writes under its key is
   * the value the next load assigns to that collection.
   */
  lemma SaveRoundTrip(items: map<string, Value>, p: seq<Person>, v: seq<Vendor>, t: seq<Task>, d: seq<Document>, c: EventConfig)
    requires Readable(items)
    ensures Restore(items[PeopleKey := PeopleJson(p)]).people == Some(p)
    ensures Restore(items[VendorsKey := VendorsJson(v)]).vendors == Some(v)
    ensures Restore(items[TasksKey := TasksJson(t)]).tasks == Some(t)
    ensures Restore(items[DocumentsKey := DocumentsJson(d)]).documents == Some(d)
    ensures Restore(items[EventConfigKey := ConfigJson(c)]).config == Some(c)
  {
    WriteKeepsReadable(items, PeopleKey, PeopleJson(p));
    RestoreReadable(items[PeopleKey := PeopleJson(p)]);
    WriteKeepsReadable(items, VendorsKey, VendorsJson(v));
    RestoreReadable(items[VendorsKey := VendorsJson(v)]);
    WriteKeepsReadable(items, TasksKey, TasksJson(t));
    RestoreReadable(items[TasksKey := TasksJson(t)]);
    WriteKeepsReadable(items, DocumentsKey, DocumentsJson(d));
    RestoreReadable(items[DocumentsKey := DocumentsJson(d)]);
    WriteKeepsReadable(items, EventConfigKey, ConfigJson(c));
    RestoreReadable(items[EventConfigKey := ConfigJson(c)]);
  }
}

=== FILE: team_selection_page.dfy ===
/**
 * The team-selection page (`TeamSelection`): the members of the chosen team
 * as cards with initials, and the choice of one of them, which is recorded
 * in the team-selection context before the dashboard opens.
 */
module TeamSelectionPage {
  import opened Wrappers
  import opened Records
  import opened Seqs
  import opened Storage
  import opened SelectionContext

  const DashboardPrefix: string := "/dashboard/"

  /** `s.split(' ')`: the pieces between single spaces, empty pieces included. */
  function Split(s: string): (r: seq<string>)
    ensures |r| >= 1
    ensures forall w :: w in r ==> ' ' !in w
  {
    if s == [] then [[]]
    else
      var rest := Split(s[1..]);
      if s[0] == ' ' then [[]] + rest
      else
        assert rest[0] in rest;
        assert forall w :: w in rest[1..] ==> w in rest;
        [[s[0]] + rest[0]] + rest[1..]
  }

  /** Joining the pieces with single spaces gives the string back. */
  lemma {:induction false} JoinSplit(s: string)
    ensures Join(Split(s), " ") == s
  {
    if s != [] {
      var rest := Split(s[1..]);
      JoinSplit(s[1..]);
      if s[0] == ' ' {
        assert Split(s) == [[]] + rest;
        assert (([[]] + rest)[1..]) == rest;
      } else {
        var parts := [[s[0]] + rest[0]] + rest[1..];
        assert Split(s) == parts;
        if |rest| == 1 {
          assert Join(rest, " ") == rest[0];
        } else {
          assert parts[1..] == rest[1..];
          assert Join(rest, " ") == rest[0] + " " + Join(rest[1..], " ");
        }
        assert s == [s[0]] + s[1..];
      }
    }
  }

  /** `n[0]` as `join` renders it: the first character, or nothing for an empty piece. */
  function Head(w: string): (r: string)
    ensures |r| <= 1 && |r| <= |w|
  {
    if w == [] then [] else [w[0]]
  }

  /** `words.map(n => n[0]).join('')`. */
  function FirstChars(words: seq<string>): string
  {
    if words == [] then [] else Head(words[0]) + FirstChars(words[1..])
  }

  /**
   * Reference definition: the characters that start a word, that is, every
   * non-space character at the start of the string or right after a space.
   */
  function WordStarts(s: string, afterSpace: bool): (r: string)
    ensures |r| <= |s|
    ensures forall c :: c in r ==> c in s && c != ' '
  {
    if s == [] then []
    else (if s[0] != ' ' && afterSpace then [s[0]] else []) + WordStarts(s[1..], s[0] == ' ')
  }

  /** The first characters of the pieces are exactly the word starts. */
  lemma {:induction false} FirstCharsAreWordStarts(s: string)
    ensures Head(Split(s)[0]) + FirstChars(Split(s)[1..]) == WordStarts(s, true)
    ensures FirstChars(Split(s)[1..]) == WordStarts(s, false)
  {
    if s != [] {
      var rest := Split(s[1..]);
      FirstCharsAreWordStarts(s[1..]);
      if s[0] == ' ' {
        assert Split(s) == [[]] + rest;
        assert ([[]] + rest)[1..] == rest;
        assert FirstChars(rest) == Head(rest[0]) + FirstChars(rest[1..]);
      } else {
        assert Split(s) == [[s[0]] + rest[0]] + rest[1..];
      }
    }
  }

  lemma FirstCharsOfSplit(s: string)
    ensures FirstChars(Split(s)) == WordStarts(s, true)
  {
    FirstCharsAreWordStarts(s);
  }

  /** The avatar's initials: `name.split(' ').map(n => n[0]).join('').substring(0, 2)`. */
  function Initials(name: string): (r: string)
    ensures |r| <= 2 && |r| <= |name|
    ensures forall c :: c in r ==> c != ' '
    ensures r == (var starts := WordStarts(name, true); if |starts| <= 2 then starts else starts[..2])
  {
    var all := FirstChars(Split(name));
    FirstCharsOfSplit(name);
    if |all| <= 2 then all
    else
      assert forall c :: c in all[..2] ==> c in all;
      all[..2]
  }

  /** Two words give their two first letters. */
  lemma InitialsOfTwoWords()
    ensures Initials("Jo Li") == "JL"
  {
    assert WordStarts("i", false) == [];
    assert WordStarts("Li", true) == "L";
    assert WordStarts(" Li", false) == "L";
    assert WordStarts("o Li", false) == "L";
    assert WordStarts("Jo Li", true) == "JL";
  }

  /** Leading and repeated spaces contribute nothing, and a third initial is cut off. */
  lemma InitialsSkipEmptyWords()
    ensures Initials(" A  B C") == "AB"
  {
    assert WordStarts("C", true) == "C";
    assert WordStarts(" C", false) == "C";
    assert WordStarts("B C", true) == "BC";
    assert WordStarts(" B C", true) == "BC";
    assert WordStarts("  B C", false) == "BC";
    assert WordStarts("A  B C", true) == "ABC";
    assert WordStarts(" A  B C", true) == "ABC";
  }

  /** The cards the page lists, or a redirect to the home page when no team type is chosen. */
  datatype Listing = Redirect | PeopleCards(people: seq<Person>) | VendorCards(vendors: seq<Vendor>)

  /** `getTeamData` with the no-type guard: people for "personal", vendors for any other non-empty type. */
  function TeamListing(teamType: Option<string>, people: seq<Person>, vendors: seq<Vendor>): (r: Listing)
    ensures r.Redirect? <==> teamType.None? || teamType == Some("")
    ensures r.PeopleCards? <==> teamType == Some(Personal)
    ensures r.PeopleCards? ==> r.people == people
    ensures r.VendorCards? ==> r.vendors == vendors
  {
    match teamType
    case None => Redirect
    case Some(t) =>
      if t == "" then Redirect
      else if t == Personal then PeopleCards(people)
      else VendorCards(vendors)
  }

  /**
   * `handlePersonSelect`: the id is recorded in the context and in storage,
   * the team type is untouched, and the dashboard of that id is opened.
   */
  method HandlePersonSelect(ctx: TeamSelection, id: string) returns (path: string)
    modifies ctx, ctx.store
    ensures ctx.selectedPersonId == Some(id) && ctx.selectedTeamType == old(ctx.selectedTeamType)
    ensures ctx.store.items == old(ctx.store.items)[PersonIdKey := Text(id)]
    ensures path == DashboardPrefix + id
  {
    ctx.SetPersonId(id);
    path := DashboardPrefix + id;
  }
}

=== FILE: team_view.dfy ===
/**
 * The participant-side view engine (`useTeamData`): a snapshot of the
 * collections refreshed from storage, the viewer's identity
 * (`selectedUser`, `userType`), and the filters that decide what that
 * viewer sees.
 *
 * `userType` is compared with "person" only; every other value, including
 * one restored unchecked from storage, takes the vendor branch.
 */
module TeamView {
  import opened Wrappers
  import opened Records
  import opened Storage
  import opened Seqs
  import Admin

  const SelectedUserKey: string := "jour-j-selected-user"
  const UserTypeKey: string := "jour-j-user-type"

  const PersonType: string := "person"
  const VendorType: string := "vendor"

  /** The assignment list a viewer of this kind is looked up in contains the viewer. */
  predicate AssignedTask(t: Task, user: string, userType: string)
  {
    if userType == PersonType then user in t.assignedTo else user in t.assignedVendors
  }

  /** `getUserTasks`. */
  function UserTasks(tasks: seq<Task>, user: string, userType: string): (r: seq<Task>)
    ensures user == "" ==> r == []
    ensures forall t :: t in r ==> t in tasks && AssignedTask(t, user, userType)
  {
    if user == "" then [] else Filter(tasks, t => AssignedTask(t, user, userType))
  }

  /** A task is listed exactly when a viewer is selected and the matching assignment list names that viewer. */
  lemma {:induction false} UserTasksExactly(tasks: seq<Task>, user: string, userType: string, t: Task)
    ensures t in UserTasks(tasks, user, userType) <==> user != "" && t in tasks && AssignedTask(t, user, userType)
  {
    if user != "" {
      FilterMembership(tasks, t => AssignedTask(t, user, userType), t);
    }
  }

  /** The listed tasks keep their original order: the filter distributes over concatenation. */
  lemma {:induction false} UserTasksInOrder(a: seq<Task>, b: seq<Task>, user: string, userType: string)
    ensures UserTasks(a + b, user, userType) == UserTasks(a, user, userType) + UserTasks(b, user, userType)
  {
    if user != "" {
      FilterAppend(a, b, t => AssignedTask(t, user, userType));
    }
  }

  /** `getUserDocuments`' filter: public and team documents pass, any other permission needs an assignment. */
  predicate VisibleDocument(d: Document, user: string, userType: string)
  {
    if d.permission == PublicPermission then true
    else if d.permission == TeamPermission then true
    else if userType == PersonType then user in d.assignedTo
    else user in d.assignedVendors
  }

  /** `getUserDocuments`. */
  function UserDocuments(documents: seq<Document>, user: string, userType: string): (r: seq<Document>)
    ensures user == "" ==> r == []
    ensures forall d :: d in r ==> d in documents && VisibleDocument(d, user, userType)
  {
    if user == "" then [] else Filter(documents, d => VisibleDocument(d, user, userType))
  }

  /** Public and team documents are listed for every selected viewer, whatever the assignment lists say. */
  lemma {:induction false} SharedDocumentsListed(documents: seq<Document>, user: string, userType: string, d: Document)
    requires d in documents
    requires d.permission == PublicPermission || d.permission == TeamPermission
    ensures d in UserDocuments(documents, user, userType) <==> user != ""
  {
    if user != "" {
      FilterMembership(documents, d => VisibleDocument(d, user, userType), d);
    }
  }

  /**
   * A document with any other permission ("specific", or an unexpected value)
   * is listed exactly when the selected viewer is in the list matching the viewer's kind.
   */
  lemma {:induction false} SpecificDocumentsListed(documents: seq<Document>, user: string, userType: string, d: Document)
    requires d in documents
    requires d.permission != PublicPermission && d.permission != TeamPermission
    ensures d in UserDocuments(documents, user, userType) <==>
              user != "" && (if userType == PersonType then user in d.assignedTo else user in d.assignedVendors)
  {
    if user != "" {
      FilterMembership(documents, d => VisibleDocument(d, user, userType), d);
    }
  }

  /** The listed documents keep their original order. */
  lemma {:induction false} UserDocumentsInOrder(a: seq<Document>, b: seq<Document>, user: string, userType: string)
    ensures UserDocuments(a + b, user, userType) == UserDocuments(a, user, userType) + UserDocuments(b, user, userType)
  {
    if user != "" {
      FilterAppend(a, b, d => VisibleDocument(d, user, userType));
    }
  }

  /** What `getCurrentUser` returns: `null`, `undefined`, or the record found. */
  datatype Viewer = Unselected | NotFound | AsPerson(person: Person) | AsVendor(vendor: Vendor)

  /** `getCurrentUser`. */
  function CurrentUser(people: seq<Person>, vendors: seq<Vendor>, user: string, userType: string): (r: Viewer)
    ensures r.Unselected? <==> user == ""
    ensures r.AsPerson? ==> userType == PersonType && r.person in people && r.person.id == user
    ensures r.AsVendor? ==> userType != PersonType && r.vendor in vendors && r.vendor.id == user
    ensures r.NotFound? <==>
              && user != ""
              && (if userType == PersonType then forall i :: 0 <= i < |people| ==> people[i].id != user
                  else forall i :: 0 <= i < |vendors| ==> vendors[i].id != user)
  {
    if user == "" then Unselected
    else if userType == PersonType then
      match Find(people, (p: Person) => p.id == user)
      case Some(p) => AsPerson(p)
      case None => NotFound
    else
      match Find(vendors, (v: Vendor) => v.id == user)
      case Some(v) => AsVendor(v)
      case None => NotFound
  }

  /** When several people share the selected id, the first of them is the current user. */
  lemma CurrentUserIsFirst(people: seq<Person>, vendors: seq<Vendor>, user: string, i: nat)
    requires user != "" && i < |people| && people[i].id == user
    requires forall j :: 0 <= j < i ==> people[j].id != user
    ensures CurrentUser(people, vendors, user, PersonType) == AsPerson(people[i])
  {
    FindFirst(people, (p: Person) => p.id == user, i);
  }

  /** `Math.round(done / total * 100)`, or 0 for no tasks; halves round up. */
  function Percent(done: nat, total: nat): (r: nat)
    requires done <= total
    ensures total == 0 ==> r == 0
    ensures total > 0 ==> 2 * total * r <= 200 * done + total < 2 * total * (r + 1)
    ensures r <= 100
    ensures 0 < done == total ==> r == 100
  {
    if total == 0 then 0
    else
      var r := (200 * done + total) / (2 * total);
      PercentBounds(done, total, r);
      r
  }

  lemma PercentBounds(done: nat, total: nat, r: nat)
    requires 0 < total && done <= total
    requires r == (200 * done + total) / (2 * total)
    ensures 2 * total * r <= 200 * done + total < 2 * total * (r + 1)
    ensures r <= 100
    ensures done == total ==> r == 100
  {
    var n := 200 * done + total;
    var m := 2 * total;
    DivBounds(n, m);
    if r > 100 {
      MulMono(m, 101, r);
    }
    if done == total {
      assert m * 100 <= n < m * 101;
      DivIsUnique(n, m, 100);
    }
  }

  lemma DivBounds(n: nat, m: nat)
    requires m > 0
    ensures m * (n / m) <= n < m * (n / m + 1)
  {
    assert n == m * (n / m) + n % m;
  }

  lemma DivIsUnique(n: nat, m: nat, q: nat)
    requires m > 0 && m * q <= n < m * (q + 1)
    ensures n / m == q
  {
    var q' := n / m;
    DivBounds(n, m);
    if q' < q {
      MulMono(m, q' + 1, q);
    } else if q' > q {
      MulMono(m, q + 1, q');
    }
  }

  lemma MulMono(m: nat, a: nat, b: nat)
    requires a <= b
    ensures m * a <= m * b
  {
  }

  /** The number of tasks whose status is "completed", counted by position. */
  function CompletedCount(tasks: seq<Task>): nat
  {
    |set i | 0 <= i < |tasks| && tasks[i].status == Completed|
  }

  /** `tasks.filter(task => task.status === 'completed')`: exactly the completed tasks, one per completed position. */
  function CompletedTasks(tasks: seq<Task>): (r: seq<Task>)
    ensures forall t :: t in r <==> t in tasks && t.status == Completed
    ensures |r| == CompletedCount(tasks)
  {
    var isCompleted := (t: Task) => t.status == Completed;
    FilterCount(tasks, isCompleted);
    assert IndicesWhere(tasks, isCompleted) == set i | 0 <= i < |tasks| && tasks[i].status == Completed;
    assert forall t :: t in Filter(tasks, isCompleted) <==> t in tasks && t.status == Completed by {
      forall t {
        FilterMembership(tasks, isCompleted, t);
      }
    }
    Filter(tasks, isCompleted)
  }

  /**
   * `getUserProgress`: 0 when the viewer has no tasks, otherwise the share of
   * the viewer's tasks that are completed, as a percentage rounded half up.
   */
  function UserProgress(tasks: seq<Task>, user: string, userType: string): (r: nat)
    ensures r <= 100
    ensures UserTasks(tasks, user, userType) == [] ==> r == 0
    ensures var mine := UserTasks(tasks, user, userType);
      |mine| > 0 ==> 2 * |mine| * r <= 200 * CompletedCount(mine) + |mine| < 2 * |mine| * (r + 1)
    ensures var mine := UserTasks(tasks, user, userType);
      0 < CompletedCount(mine) == |mine| ==> r == 100
  {
    var mine := UserTasks(tasks, user, userType);
    Percent(|CompletedTasks(mine)|, |mine|)
  }

  /** Four assigned tasks of which one is completed give 25. */
  lemma ProgressOneOfFour()
    ensures Percent(1, 4) == 25
  {
  }

  /** The participant's session state. */
  class TeamData {
    const store: LocalStore
    var people: seq<Person>
    var vendors: seq<Vendor>
    var tasks: seq<Task>
    var documents: seq<Document>
    var eventConfig: Option<EventConfig>
    var loading: bool
    var selectedUser: string
    var userType: string
    /** Number of load failures reported with `console.error`. */
    var errorsLogged: nat

    constructor (store: LocalStore)
      ensures this.store == store
      ensures people == [] && vendors == [] && tasks == [] && documents == []
      ensures eventConfig == None && loading
      ensures selectedUser == "" && userType == PersonType
      ensures errorsLogged == 0
    {
      this.store := store;
      people, vendors, tasks, documents := [], [], [], [];
      eventConfig := None;
      loading := true;
      selectedUser, userType := "", PersonType;
      errorsLogged := 0;
    }

    /** The first mount effect: restores the identity, key by key, only from keys holding a non-empty string. */
    method RestoreIdentity()
      modifies this
      ensures selectedUser == (match TextAt(store.items, SelectedUserKey) case Some(s) => s case None => old(selectedUser))
      ensures userType == (match TextAt(store.items, UserTypeKey) case Some(s) => s case None => old(userType))
      ensures people == old(people) && vendors == old(vendors) && tasks == old(tasks) && documents == old(documents)
      ensures eventConfig == old(eventConfig) && loading == old(loading) && errorsLogged == old(errorsLogged)
    {
      var savedUser := TextAt(store.items, SelectedUserKey);
      var savedUserType := TextAt(store.items, UserTypeKey);
      if savedUser.Some? { selectedUser := savedUser.value; }
      if savedUserType.Some? { userType := savedUserType.value; }
    }

    /**
     * `loadData`, run at mount and then by the refresh timer: each collection
     * whose key the load reaches is replaced, the others are kept, and
     * `loading` ends false whether or not a parse failed.
     */
    method LoadData()
      modifies this
      ensures people == Restore(old(store.items)).people.GetOr(old(people))
      ensures vendors == Restore(old(store.items)).vendors.GetOr(old(vendors))
      ensures tasks == Restore(old(store.items)).tasks.GetOr(old(tasks))
      ensures documents == Restore(old(store.items)).documents.GetOr(old(documents))
      ensures eventConfig == Restore(old(store.items)).KeptConfig(old(eventConfig))
      ensures errorsLogged == old(errorsLogged) + (if Restore(old(store.items)).failed then 1 else 0)
      ensures !loading && store.items == old(store.items)
      ensures selectedUser == old(selectedUser) && userType == old(userType)
    {
      var r := Restore(store.items);
      people := r.people.GetOr(people);
      vendors := r.vendors.GetOr(vendors);
      tasks := r.tasks.GetOr(tasks);
      documents := r.documents.GetOr(documents);
      eventConfig := r.KeptConfig(eventConfig);
      errorsLogged := errorsLogged + if r.failed then 1 else 0;
      loading := false;
    }

    /** `selectUser`: sets both identity fields and writes both to storage; the collections are untouched. */
    method SelectUser(userId: string, kind: string)
      requires kind == PersonType || kind == VendorType
      modifies this, store
      ensures selectedUser == userId && userType == kind
      ensures store.items == old(store.items)[SelectedUserKey := Text(userId)][UserTypeKey := Text(kind)]
      ensures people == old(people) && vendors == old(vendors) && tasks == old(tasks) && documents == old(documents)
      ensures eventConfig == old(eventConfig) && loading == old(loading) && errorsLogged == old(errorsLogged)
    {
      selectedUser := userId;
      userType := kind;
      store.SetItem(SelectedUserKey, Text(userId));
      store.SetItem(UserTypeKey, Text(kind));
    }

    function GetUserTasks(): seq<Task>
      reads this
    {
      UserTasks(tasks, selectedUser, userType)
    }

    function GetUserDocuments(): seq<Document>
      reads this
    {
      UserDocuments(documents, selectedUser, userType)
    }

    function GetCurrentUser(): Viewer
      reads this
    {
      CurrentUser(people, vendors, selectedUser, userType)
    }

    function GetUserProgress(): nat
      reads this
    {
      UserProgress(tasks, selectedUser, userType)
    }
  }

  /**
   * Synchronisation between an organizer session and a participant session
   * sharing one store: a save is not visible in the participant's snapshot
   * until its next `loadData`, and is visible after it.
   */
  method SaveThenRefresh(admin: Admin.AdminData, team: TeamData, x: seq<Task>) returns (beforeRefresh: seq<Task>)
    requires admin.store == team.store
    requires Readable(team.store.items)
    modifies admin, team, team.store
    ensures beforeRefresh == old(team.tasks)
    ensures team.tasks == x && !team.loading
  {
    admin.SaveTasks(x);
    beforeRefresh := team.tasks;
    SaveRoundTrip(old(team.store.items), [], [], x, [], DefaultEventConfig(""));
    team.LoadData();
  }
}

=== FILE: time_of_day.dfy ===
/**
 * `getEndTime(startTime, duration)` and `formatTime(timeStr)`: a start time
 * "HH:MM" placed on a fixed day, moved by a number of minutes, and shown as
 * two-digit hours and minutes, so that the result wraps around midnight.
 * A start time the clock library cannot read shows as "Invalid Date".
 */
module TimeOfDay {
  import opened Wrappers

  const MinutesPerDay: nat := 1440
  const InvalidDate: string := "Invalid Date"

  predicate IsDigit(c: char)
  {
    '0' <= c <= '9'
  }

  function DigitValue(c: char): (r: nat)
    requires IsDigit(c)
    ensures r < 10
  {
    (c as int) - ('0' as int)
  }

  function DigitChar(n: nat): (r: char)
    requires n < 10
    ensures IsDigit(r) && DigitValue(r) == n
  {
    ('0' as int + n) as char
  }

  /** The minute of the day a well-formed "HH:MM" (hours 00-23, minutes 00-59) names. */
  function ParseClock(s: string): (r: Option<nat>)
    ensures r.Some? ==> r.value < MinutesPerDay
    ensures r.Some? ==> |s| == 5 && s[2] == ':'
  {
    if |s| == 5 && IsDigit(s[0]) && IsDigit(s[1]) && s[2] == ':' && IsDigit(s[3]) && IsDigit(s[4]) then
      var h := 10 * DigitValue(s[0]) + DigitValue(s[1]);
      var m := 10 * DigitValue(s[3]) + DigitValue(s[4]);
      if h < 24 && m < 60 then Some(60 * h + m) else None
    else None
  }

  /** The minute of the day as "HH:MM". */
  function FormatClock(m: nat): (r: string)
    requires m < MinutesPerDay
    ensures |r| == 5 && r[2] == ':'
  {
    var h := m / 60;
    var mm := m % 60;
    [DigitChar(h / 10), DigitChar(h % 10), ':', DigitChar(mm / 10), DigitChar(mm % 10)]
  }

  /** Formatting a minute of the day and reading it back gives the same minute. */
  lemma ParseFormat(m: nat)
    requires m < MinutesPerDay
    ensures ParseClock(FormatClock(m)) == Some(m)
  {
    var s := FormatClock(m);
    assert DigitValue(s[0]) == m / 60 / 10 && DigitValue(s[1]) == m / 60 % 10;
    assert DigitValue(s[3]) == m % 60 / 10 && DigitValue(s[4]) == m % 60 % 10;
  }

  /** Reading a well-formed time and formatting it again gives the same string. */
  lemma FormatParse(s: string)
    requires ParseClock(s).Some?
    ensures FormatClock(ParseClock(s).value) == s
  {
    var h := 10 * DigitValue(s[0]) + DigitValue(s[1]);
    var m := 10 * DigitValue(s[3]) + DigitValue(s[4]);
    var t := 60 * h + m;
    assert t / 60 == h && t % 60 == m;
    assert h / 10 == DigitValue(s[0]) && h % 10 == DigitValue(s[1]);
    assert m / 10 == DigitValue(s[3]) && m % 10 == DigitValue(s[4]);
    var r := FormatClock(t);
    assert r[0] == s[0] && r[1] == s[1] && r[3] == s[3] && r[4] == s[4];
  }

  /** `getEndTime`: the start moved by `duration` minutes, modulo a day. */
  function EndTime(startTime: string, duration: int): (r: string)
    ensures ParseClock(startTime).None? ==> r == InvalidDate
    ensures ParseClock(startTime).Some? ==> ParseClock(r) == Some((ParseClock(startTime).value + duration) % MinutesPerDay)
  {
    match ParseClock(startTime)
    case None => InvalidDate
    case Some(m) =>
      var e := (m + duration) % MinutesPerDay;
      ParseFormat(e);
      FormatClock(e)
  }

  /** `formatTime`: a well-formed start time is shown as it is. */
  function FormatTime(timeStr: string): (r: string)
    ensures ParseClock(timeStr).Some? ==> r == timeStr
    ensures ParseClock(timeStr).None? ==> r == InvalidDate
  {
    if ParseClock(timeStr).Some? then EndTimeZero(timeStr); EndTime(timeStr, 0) else InvalidDate
  }

  /** Moving a well-formed time by no minutes shows it as it is. */
  lemma EndTimeZero(s: string)
    requires ParseClock(s).Some?
    ensures EndTime(s, 0) == s
  {
    var m := ParseClock(s).value;
    assert (m + 0) % MinutesPerDay == m;
    FormatParse(s);
  }

  /** An hour after 23:30 is 00:30: the end time wraps past midnight. */
  lemma EndTimeWraps()
    ensures EndTime("23:30", 60) == "00:30"
  {
    assert ParseClock("23:30") == Some(1410);
  }

  /** A whole day more or less shows the same end time. */
  lemma EndTimeDayPeriodic(startTime: string, duration: int)
    ensures EndTime(startTime, duration + MinutesPerDay) == EndTime(startTime, duration)
  {
    if ParseClock(startTime).Some? {
      var m := ParseClock(startTime).value;
      DayShift(m + duration, 1);
      assert m + (duration + MinutesPerDay) == (m + duration) + 1 * MinutesPerDay;
    }
  }

  /** Moving by `a` then by `b` minutes is moving by `a + b`. */
  lemma EndTimeCompose(startTime: string, a: int, b: int)
    requires ParseClock(startTime).Some?
    ensures EndTime(EndTime(startTime, a), b) == EndTime(startTime, a + b)
  {
    var m := ParseClock(startTime).value;
    var e := (m + a) % MinutesPerDay;
    assert ParseClock(EndTime(startTime, a)) == Some(e);
    var q := (m + a) / MinutesPerDay;
    assert m + a + b == (e + b) + q * MinutesPerDay;
    DayShift(e + b, q);
  }

  /** Whole days do not change the minute of the day. */
  lemma DayShift(z: int, q: int)
    ensures (z + q * MinutesPerDay) % MinutesPerDay == z % MinutesPerDay
  {
    var x := z + q * MinutesPerDay;
    assert x == (z / MinutesPerDay + q) * MinutesPerDay + z % MinutesPerDay;
    assert x / MinutesPerDay == z / MinutesPerDay + q;
  }
}

=== FILE: user_selector.dfy ===
/**
 * The participant's "who are you?" card (`UserSelector`): a kind and an id
 * picked on screen, confirmed into the participant hook's identity.
 */
module UserSelection {
  import opened Records
  import opened Edits
  import opened TeamView

  class UserSelector {
    const team: TeamData
    var selectedType: string
    var selectedId: string

    /** The kind is always one of the two the buttons offer. */
    predicate Valid()
      reads this
    {
      selectedType == PersonType || selectedType == VendorType
    }

    constructor (team: TeamData)
      ensures this.team == team
      ensures selectedType == PersonType && selectedId == ""
      ensures Valid()
    {
      this.team := team;
      selectedType := PersonType;
      selectedId := "";
    }

    /** A kind button: switches the kind and always clears the chosen id. */
    method ChooseType(kind: string)
      requires kind == PersonType || kind == VendorType
      modifies this
      ensures selectedType == kind && selectedId == ""
      ensures Valid()
    {
      selectedType := kind;
      selectedId := "";
    }

    /** The select's `onValueChange`. */
    method ChooseId(id: string)
      requires Valid()
      modifies this
      ensures selectedId == id && selectedType == old(selectedType)
      ensures Valid()
    {
      selectedId := id;
    }

    /** The ids the select offers: people for "person", vendors for "vendor". */
    function CandidateIds(): (r: seq<string>)
      reads this, team
      ensures selectedType == PersonType ==> r == Ids(team.people, PersonId)
      ensures selectedType != PersonType ==> r == Ids(team.vendors, VendorId)
    {
      if selectedType == PersonType then Ids(team.people, PersonId) else Ids(team.vendors, VendorId)
    }

    /** The confirm button is disabled exactly when no id is chosen. */
    function ConfirmDisabled(): (r: bool)
      reads this
      ensures r <==> selectedId == ""
    {
      selectedId == ""
    }

    /**
     * `handleConfirmSelection`: with no id chosen nothing happens; otherwise
     * the hook's identity becomes the chosen id and kind, in state and in
     * storage, and a chosen candidate is then found as the current user.
     */
    method HandleConfirm()
      requires Valid()
      modifies team, team.store
      ensures selectedId == "" ==> team.selectedUser == old(team.selectedUser) && team.userType == old(team.userType)
      ensures selectedId == "" ==> team.store.items == old(team.store.items)
      ensures selectedId != "" ==> team.selectedUser == selectedId && team.userType == selectedType
      ensures selectedId != "" ==> team.store.items == old(team.store.items)[SelectedUserKey := Storage.Text(selectedId)][UserTypeKey := Storage.Text(selectedType)]
      ensures selectedId != "" && selectedId in old(CandidateIds()) ==> team.GetCurrentUser().AsPerson? || team.GetCurrentUser().AsVendor?
      ensures team.people == old(team.people) && team.vendors == old(team.vendors) && team.tasks == old(team.tasks)
      ensures team.documents == old(team.documents) && team.eventConfig == old(team.eventConfig)
      ensures team.loading == old(team.loading) && team.errorsLogged == old(team.errorsLogged)
    {
      if selectedId != "" {
        team.SelectUser(selectedId, selectedType);
      }
    }
  }
}

=== FILE: wrappers.dfy ===
/** Optional values and error results, standing for the source's `null`/`undefined` and thrown errors. */
module Wrappers {

  datatype Option<+T> = None | Some(value: T) {
    /** The value, or `default` when there is none (`x ?? default`). */
    function GetOr(default: T): T
    {
      match this
      case Some(v) => v
      case None => default
    }
  }

  datatype Result<+T, +E> = Ok(value: T) | Err(error: E)
}
